=== FILE: README.md ===
# Portfolio project data layer, in Dafny

This project models the data layer of a personal portfolio web site. It also
covers the pure list and record transformations that the site's admin screens
and public project section apply on top of that layer. Every store is an
immutable value, and every operation maps the old state to the new one: a
function, or a method where the source loops (the listing and analytics
scans, the upload loop, publishing, the admin reload). The clock, the network outcome,
the image upload, the URL check and lower-casing are all parameters.

The model has these parts:

- **Types** (`project_types.dfy`, `wrappers.dfy`, `seqs.dfy`):
  - the local `Project`, `ProjectFormData` and `Analytics` records of
    `src/types/project.ts`;
  - JavaScript truthiness for `||` on strings (`OrElse`, `OptOrElse`);
  - the schema's optional-URL rule;
  - order-preserving filtering and counting, with their lemmas.
- **Device-local project store** (`project_storage.dfy`, module
  `ProjectStorage`). The browser storage is a `Device` with two slots. Each
  slot is `Missing`, `Corrupt` (its text does not parse) or `Stored`. The
  store provides:
  - upsert, soft delete and restore;
  - the live view with its fallback list, and the full view;
  - the analytics record that every mutation refreshes by merge.

  The fallback list is passed in as `Env.fallback`. `DefaultProjects`
  defines the module's two default records, stamped with the module's load
  time. `DefaultsShape` and `GetProjectsNeverEmpty` connect the two.
- **Device-local event counters** (`local_analytics.dfy`): the three
  increments and the raw project reader of `src/utils/analytics.ts`. They
  share the store's slots but throw on an unreadable record.
- **Remote event log** (`firebase_analytics.dfy`): events appended to a log,
  and the dashboard scan that counts the three recognised kinds.
- **Remote project collection** (`firebase_projects.dfy`): a map from
  document id to a schemaless document. The model covers:
  - the defaulting `addProject` performs;
  - the field cross-fallbacks of the read;
  - a merge update that always stamps `updatedAt`;
  - hard delete;
  - a newest-first listing, built by insertion in a loop.
- **Screens**:
  - `add_project_dialog.dfy`: schema, tag and screenshot editing,
    publish / draft / submit.
  - `projects_management.dfy`: search and status filter, dashboard counters,
    the status toggle, restore, delete.
  - `projects_section.dfy`: public list, card image, links.
  - `badges.dfy`: tag overflow.
  - `edit_links_dialog.dfy`: the links dialog.
  - `screenshot_carousel.dfy`: index step, render cases, dots.

Behaviour of the code that a reader might not expect, which the model
follows:

- **Local project counters.** The counters are taken over the live view.
  When nothing is live, that view is the fallback list. They are not taken
  over every stored record (`src/utils/projectStorage.ts:90-96`).
- **Admin counters.** These count the remote listing.
- **Cached counters.** The local counters are cached in the stored record
  and refreshed only by mutations; they are not recomputed on every read.
  A record first written by `src/utils/analytics.ts` has no project
  counters at all (`LocalAnalytics.ViewCountersAgree`).
- **The admin star action.** It flips `status` between active and archived
  and never touches `featured`. The admin featured counter is always zero
  (`src/components/ProjectsManagement.tsx:89, 148`).
- **Timestamps.** `updatedAt >= createdAt` is not a property of the code,
  because the clock is an arbitrary parameter.
- **Remote status.** The remote record's status is free text. It holds
  "draft" after a draft save, although the remote interface lists "active",
  "completed" and "archived" (`src/utils/firebaseProjects.ts:12`).
- **Links edit.** The links dialog saves into the device-local store. The
  admin table that opens it lists the remote collection (see Findings).

## Model

| member | source | states |
|---|---|---|
| ProjectStorage.DefaultProjects | src/utils/projectStorage.ts:6-43 | two sample records with distinct ids, both stamped with the module's load time |
| ProjectStorage.DefaultsShape | src/utils/projectStorage.ts:6-43 | the default list has two live records, both active, one featured, so its counters are 2 total, 2 active, 0 inactive, 1 featured |
| ProjectStorage.GetProjects | src/utils/projectStorage.ts:45-60 | when some stored record is live, the view is a subsequence of the stored list that holds exactly the live records, as many as there are; otherwise (nothing stored, unparsable, all deleted) it is the fallback list |
| ProjectStorage.GetAllProjects | src/utils/projectStorage.ts:62-70 | every stored record, soft-deleted ones included; the empty list when nothing is stored or the text does not parse |
| ProjectStorage.LiveViewOfAll | src/utils/projectStorage.ts:45-70 | the live view is the full list with soft-deleted records filtered out, or the fallback when that leaves nothing |
| ProjectStorage.GetProjectsNeverEmpty | src/utils/projectStorage.ts:45-60 | with the module's defaults as fallback, the live view is never empty |
| ProjectStorage.FindIndex | src/utils/projectStorage.ts:79 | the position found holds the id and no earlier position does; none is found only when no record has the id |
| ProjectStorage.GetProject | src/utils/projectStorage.ts:72-75 | a found record is stored, has the id and is the first record with it; nothing is found exactly when no stored record has the id |
| ProjectStorage.TotalsBalance | src/utils/projectStorage.ts:92-95 | active and inactive counts add up to the total |
| ProjectStorage.Recount | src/utils/projectStorage.ts:89-96 | the refresh leaves the projects alone, brings the stored counters in line with the live view, and keeps the three event counters |
| ProjectStorage.GetAnalytics | src/utils/projectStorage.ts:137-159 | the stored record when there is a readable one; otherwise zero event counters and project counters over the live view, balanced |
| ProjectStorage.UpdateAnalytics | src/utils/projectStorage.ts:161-165 | the projects are kept and the record is written; each field the patch carries replaces the read value, every other field keeps it |
| ProjectStorage.UpdateAnalyticsLaws | src/utils/projectStorage.ts:161-165 | reading after an update gives the merge; an empty patch changes nothing readable; a patch applied twice equals applying it once |
| ProjectStorage.SaveProject | src/utils/projectStorage.ts:77-97 | an existing id is replaced in place with `updatedAt := now`, with the length and every other record unchanged; a new id is appended with both timestamps `now` (one clock reading for both); counters end in sync and event counters are kept |
| ProjectStorage.DeleteProject | src/utils/projectStorage.ts:99-116 | an unknown id changes nothing; otherwise only `deletedAt` of the first match is set, the length is kept, counters are in sync and event counters kept |
| ProjectStorage.RestoreProject | src/utils/projectStorage.ts:118-135 | an unknown id changes nothing; otherwise only `deletedAt` of the first match is cleared, making it live, with everything else as for delete |
| ProjectStorage.IncrementProjectViews | src/utils/projectStorage.ts:167-170 | the view counter rises by exactly one; the other counters and the projects are unchanged |
| ProjectStorage.InSyncCountersBalance | src/utils/projectStorage.ts:90-96 | after a mutation the stored total is the live view's length and active plus inactive is the total |
| ProjectStorage.SaveKeepsIdsUnique | src/utils/projectStorage.ts:79-85 | saving keeps ids unique |
| ProjectStorage.SaveThenGet | src/utils/projectStorage.ts:72-85 | reading by id after a save yields the saved record with its new timestamps |
| ProjectStorage.DeletedRecordHidden | src/utils/projectStorage.ts:99-105 | a soft-deleted record stays in the full list at its position but leaves the live view |
| ProjectStorage.DeleteRestoreRoundTrip | src/utils/projectStorage.ts:99-135 | deleting then restoring a live record gives back the stored list exactly, `updatedAt` included; with counters already in sync, the whole device |
| LocalAnalytics.Current | src/utils/analytics.ts:3 | with nothing stored the counters start from the all-zero record |
| LocalAnalytics.Bump | src/utils/analytics.ts:4 | one counter rises by one, the others and the project counters are untouched |
| LocalAnalytics.Track | src/utils/analytics.ts:2-18 | an unreadable record makes the call fail; otherwise only the chosen counter rises by one and the projects are untouched |
| LocalAnalytics.TrackVisitor | src/utils/analytics.ts:2-6 | visitors rise by one, the other counters, the project counters and the projects unchanged; fails exactly on an unreadable record |
| LocalAnalytics.TrackFormSubmission | src/utils/analytics.ts:8-12 | form submissions rise by one, the other counters, the project counters and the projects unchanged; fails exactly on an unreadable record |
| LocalAnalytics.TrackProjectView | src/utils/analytics.ts:14-18 | project views rise by one, the other counters, the project counters and the projects unchanged; fails exactly on an unreadable record |
| LocalAnalytics.GetProjects | src/utils/analytics.ts:20-22 | the stored list unfiltered, empty when nothing is stored, a failure when unparsable |
| LocalAnalytics.TrackCommutes | src/utils/analytics.ts:2-18 | two events counted in either order leave the same device |
| LocalAnalytics.TrackKeepsCountersInSync | src/utils/analytics.ts:2-18 | counting events keeps the project counters in line with the live view |
| LocalAnalytics.ViewCountersAgree | src/utils/analytics.ts:14-18 | on a stored record, this view increment and the project store's agree; on an empty slot only the store's writes project counters |
| LocalAnalytics.DeletedStillListed | src/utils/analytics.ts:20-22 | a soft-deleted record is still returned by the raw reader at its position |
| FirebaseAnalytics.CountKindAppend | src/utils/firebaseAnalytics.ts:55-68 | appending an event adds one to the count of its own kind only |
| FirebaseAnalytics.Append | src/utils/firebaseAnalytics.ts:14-18 | a successful write extends the log by exactly that event; a failed one leaves it as it was |
| FirebaseAnalytics.TrackVisitor | src/utils/firebaseAnalytics.ts:12-22 | on success only the visitor count rises by one and the event carries the user agent and time; a failure is swallowed and leaves the log |
| FirebaseAnalytics.TrackFormSubmission | src/utils/firebaseAnalytics.ts:24-33 | on success only the form count rises by one; a failure leaves the log |
| FirebaseAnalytics.TrackProjectView | src/utils/firebaseAnalytics.ts:35-45 | on success only the view count rises by one and the event carries the project id; a failure leaves the log |
| FirebaseAnalytics.GetAnalytics | src/utils/firebaseAnalytics.ts:47-75 | the scan returns the number of events of each recognised kind, or zeros when the read fails |
| FirebaseAnalytics.CountsBounded | src/utils/firebaseAnalytics.ts:55-70 | the three counters together never exceed the number of events |
| FirebaseAnalytics.OtherKindsIgnored | src/utils/firebaseAnalytics.ts:57-67 | an event of any other kind changes no counter |
| FirebaseAnalytics.CountKindSwap | src/utils/firebaseAnalytics.ts:55-68 | the counts do not depend on the order the documents come back in |
| FirebaseProjects.Normalize | src/utils/firebaseProjects.ts:31-49 | the stored description is the short description, else the description, else empty; the image likewise from thumbnail and image; status and visibility default; both timestamps are `now` |
| FirebaseProjects.NormalizeDefaults | src/utils/firebaseProjects.ts:31-46 | every field is written; absent texts become empty, absent lists empty, status "active", visibility "show", featured false, order 0 |
| FirebaseProjects.ReadDoc | src/utils/firebaseProjects.ts:64-86 | description and short description fall back on each other, image and thumbnail likewise; status and visibility are never empty; a missing creation time is the reader's clock |
| FirebaseProjects.AddProject | src/utils/firebaseProjects.ts:28-58 | on success exactly the fresh id is added and returned, holding the normalised input, other documents untouched; on failure the collection is unchanged and the error propagates |
| FirebaseProjects.OverlayLaws | src/utils/firebaseProjects.ts:96-99 | the spread merge: an empty patch is the identity, a patch is idempotent, two patches compose into their merge |
| FirebaseProjects.UpdateProject | src/utils/firebaseProjects.ts:93-105 | only the named document changes: its fields become the patch merged over the old ones, it keeps its creation time and gets `updatedAt := now`; a missing document or an unreachable backend is an error and changes nothing |
| FirebaseProjects.UpdatesCompose | src/utils/firebaseProjects.ts:93-105 | two successive updates of a document equal one update with the merged patch at the later time |
| FirebaseProjects.DeleteProject | src/utils/firebaseProjects.ts:107-114 | the id is removed and nothing else; an absent id succeeds; a failure changes nothing |
| FirebaseProjects.InsertPos | src/utils/firebaseProjects.ts:62 | the insertion point lies after every record at least as new and before every older one |
| FirebaseProjects.InsertSorted | src/utils/firebaseProjects.ts:62 | inserting there keeps the list newest first |
| FirebaseProjects.ListProjects | src/utils/firebaseProjects.ts:60-91 | the listing holds every document with a creation time exactly once, each read by `ReadDoc`, newest first; an empty list when the read fails |
| FirebaseProjects.AddedDocReadsConsistently | src/utils/firebaseProjects.ts:31-85 | reading an added document shows the same description and short description, the same image and thumbnail, and its write time |
| FirebaseProjects.ReAddRoundTrip | src/utils/firebaseProjects.ts:31-85 | re-adding a read project and reading it back gives the same project under the new id and time |
| FirebaseProjects.UpdateThenRead | src/utils/firebaseProjects.ts:93-105 | a read after an update shows the patched title, featured flag and non-empty status, the old creation time and the new `updatedAt` |
| FirebaseProjects.DeleteThenGone | src/utils/firebaseProjects.ts:107-114 | a deleted id is in no later listing, and updating it is rejected as missing |
| FirebaseProjects.AddedIsListed | src/utils/firebaseProjects.ts:60-64 | an added project appears in the next listing as its normalised read |
| Badges.TagBadges | src/components/ProjectsManagement.tsx:329-338 | the tags shown are the first `limit` tags, or all of them when there are fewer; a "+n" badge appears exactly when there are more, and shown plus n is the tag count |
| Badges.AdminRowWithinPublicCard | src/components/ProjectsSection.tsx:172-187 | the three-tag admin row is a prefix of the six-tag card row and overflows whenever the card does |
| AddProjectDialog.ValidForm | src/components/AddProjectDialog.tsx:40-54 | the schema: the four texts and the technology list non-empty, the display order non-negative, each link absent, empty or a URL |
| AddProjectDialog.DefaultFormRejected | src/components/AddProjectDialog.tsx:79-93 | the untouched form fails the schema |
| AddProjectDialog.AddTech | src/components/AddProjectDialog.tsx:124-128 | a non-empty, unlisted tag is appended; anything else leaves the list; membership grows by exactly that tag |
| AddProjectDialog.AddTechKeepsNoDuplicates | src/components/AddProjectDialog.tsx:124-128 | a duplicate-free list stays duplicate-free |
| AddProjectDialog.RemoveTech | src/components/AddProjectDialog.tsx:130-132 | the tag is gone and the other tags remain in order, each as often as before |
| AddProjectDialog.AddThenRemoveTech | src/components/AddProjectDialog.tsx:124-132 | removing a tag just added restores the list, order included |
| AddProjectDialog.Suggestions | src/components/AddProjectDialog.tsx:381-382 | the picker offers, in their own order, exactly the common technologies not yet chosen, each as often as it is listed |
| AddProjectDialog.ChosenSuggestionLeaves | src/components/AddProjectDialog.tsx:376-383 | choosing a suggestion appends it and removes it from the suggestions |
| AddProjectDialog.AttachScreenshot | src/components/AddProjectDialog.tsx:98-115 | the list is only ever extended, by the new image, and exactly when fewer than six are attached |
| AddProjectDialog.RemoveScreenshot | src/components/AddProjectDialog.tsx:117-122 | exactly the element at the index is dropped, the rest keep their order; an out-of-range index changes nothing |
| AddProjectDialog.ScreenshotsBounded | src/components/AddProjectDialog.tsx:491 | attaching and removing never take the list beyond six |
| AddProjectDialog.AttachThenRemove | src/components/AddProjectDialog.tsx:98-122 | removing the image just attached restores the list |
| AddProjectDialog.UploadAll | src/components/AddProjectDialog.tsx:200-209 | success exactly when every inline image uploads; the result then keeps length and order, uploaded URLs in place of inline images; a failure carries the first failing upload's error |
| AddProjectDialog.Publish | src/components/AddProjectDialog.tsx:180-231 | nothing is written unless the form is valid, every upload succeeds and the backend answers; the stored document is the normalised form, active, with the hosted thumbnail and screenshots in order; no other document changes |
| AddProjectDialog.SaveAsDraft | src/components/AddProjectDialog.tsx:154-178 | without validation or upload, the new document is the normalised form with status "draft", images as they are; its id is returned and no other document changes; the only failure is an unreachable backend |
| AddProjectDialog.EmptyDraftSaved | src/components/AddProjectDialog.tsx:154-165 | even the untouched form is saved as a draft |
| AddProjectDialog.SubmitForm | src/components/AddProjectDialog.tsx:134-152 | a valid form is stored as the normalised form with the given status or else its own, images not uploaded, under the returned fresh id, other documents unchanged; an invalid one is rejected and nothing changes |
| AddProjectDialog.SubmitDraftIsSaveAsDraft | src/components/AddProjectDialog.tsx:134-165 | a valid form submitted with the draft status is stored exactly as "save as draft" stores it |
| AddProjectDialog.DraftReadsBack | src/components/AddProjectDialog.tsx:154-165 | a saved draft reads back with the form's title, texts, tags, images, links, flag and order, and the draft status |
| ProjectsManagement.FilteredProjects | src/components/ProjectsManagement.tsx:156-165 | the rows are a subsequence of the loaded list holding exactly the projects that match the search and the status filter, each as often as it is listed |
| ProjectsManagement.EmptySearchShowsAll | src/components/ProjectsManagement.tsx:157-162 | an empty query with every status selected shows the whole list |
| ProjectsManagement.AdminCounters | src/components/ProjectsManagement.tsx:84-90 | total is the list length, active counts active projects, active plus inactive is the total, featured is zero |
| ProjectsManagement.FeaturedCounterStaysZero | src/components/ProjectsManagement.tsx:89 | the featured counter reads zero even when a listed project is featured |
| ProjectsManagement.LoadProjects | src/components/ProjectsManagement.tsx:78-91 | the loaded list is the listing (empty on failure), event counters come from the log scan, active counts the active projects, and the project counters balance with featured at zero |
| ProjectsManagement.ToggleTwice | src/components/ProjectsManagement.tsx:148 | toggling twice restores the status exactly for active and archived projects |
| ProjectsManagement.ToggleFeatured | src/components/ProjectsManagement.tsx:146-154 | the document's status is toggled and every other field, `featured` included, kept; no other document changes |
| ProjectsManagement.Restore | src/components/ProjectsManagement.tsx:122-130 | the document's status becomes active and every other field is kept; no other document changes |
| ProjectsManagement.ConfirmDelete | src/components/ProjectsManagement.tsx:132-144 | with a selection exactly its document is removed and the rest kept, nothing added; without one nothing is called |
| ProjectsSection.PublicProjects | src/components/ProjectsSection.tsx:14-22 | the cards are a subsequence of the listing holding exactly the active projects, each as often as it is listed |
| ProjectsSection.OnlyStatusDecides | src/components/ProjectsSection.tsx:17 | lists that agree on statuses show as many cards, whatever their visibility |
| ProjectsSection.PublishedShownDraftHidden | src/components/ProjectsSection.tsx:17 | a published project is shown, a draft is not |
| ProjectsSection.CardMedia | src/components/ProjectsSection.tsx:90-113 | a carousel exactly when there are screenshots, over the non-empty thumbnail and screenshots in order, repeats kept; otherwise the thumbnail or the placeholder |
| ProjectsSection.BlankScreenshotsShowNothing | src/components/ProjectsSection.tsx:97 | all-empty images give an empty carousel, with no placeholder |
| ProjectsSection.CardTags | src/components/ProjectsSection.tsx:172-187 | the first six tags, or all when there are fewer; a "+n" badge exactly when there are more than six, accounting for the rest |
| ProjectsSection.GitHubLink | src/components/ProjectsSection.tsx:117-129 | the GitHub button appears exactly when the repository link is non-empty, pointing at it |
| ProjectsSection.PrimaryLink | src/components/ProjectsSection.tsx:203-213 | shown exactly when the live or demo link is non-empty; the live link wins and labels it "Live Demo" |
| ProjectsSection.FollowLink | src/components/ProjectsSection.tsx:198 | following a link records one view of that project |
| EditLinksDialog.DefaultLinks | src/components/EditLinksDialog.tsx:42-46 | each field starts as the stored link or empty |
| EditLinksDialog.ValidLinks | src/components/EditLinksDialog.tsx:26-30 | the links schema: each of the three fields empty or a URL |
| EditLinksDialog.DefaultLinksValid | src/components/EditLinksDialog.tsx:26-46 | the untouched form validates exactly when the stored links are empty or URLs |
| EditLinksDialog.ApplyLinks | src/components/EditLinksDialog.tsx:50-54 | the three links are replaced and, apart from `updatedAt`, nothing else changes |
| EditLinksDialog.SubmitLinks | src/components/EditLinksDialog.tsx:49-60 | an invalid form changes nothing; a valid one is saved and reads back by id with the new links, the same title and the new time; the other local records stay in place (an unknown id is appended) and the event counters are kept |
| EditLinksDialog.UntouchedFormNormalisesLinks | src/components/EditLinksDialog.tsx:43-45 | saving the untouched form turns only absent links into empty ones |
| EditLinksDialog.RemoteProjectAppended | src/components/EditLinksDialog.tsx:56 | a project whose id the local store lacks is appended to the local store as a new record |
| EditLinksDialog.SubmitLinksRemote | src/components/ProjectsManagement.tsx:107-110 | the corrected edit writes the three links to the remote document, other fields and other documents kept |
| EditLinksDialog.RemoteEditShowsLinks | src/components/ProjectsManagement.tsx:78-91 | after the corrected edit, the admin table's reload shows exactly the submitted links |
| ScreenshotCarousel.Tick | src/components/ScreenshotCarousel.tsx:12-20 | with more than one image the index moves to the next one and wraps to the first, always landing in range; otherwise it stays |
| ScreenshotCarousel.TicksFromStart | src/components/ScreenshotCarousel.tsx:15-17 | from the first image, tick `k` shows image `k` |
| ScreenshotCarousel.TicksPeriodic | src/components/ScreenshotCarousel.tsx:15-17 | after a full round the strip repeats |
| ScreenshotCarousel.Render | src/components/ScreenshotCarousel.tsx:22-68 | no images draw nothing, one draws it alone, more draw the current slide with one dot per image lit only at the index; an index past the end has no source |

## Findings

| source | as written | input that shows it | evidently intended | confidence | as-written member | corrected member |
|---|---|---|---|---|---|---|
| src/components/EditLinksDialog.tsx:56 | the links dialog saves through the device-local store, while the admin table that opens it (src/components/ProjectsManagement.tsx:107-110) lists and reloads the remote collection | any project of the admin table: its remote id is not in the local store, so the edit appends a local record and the reloaded table shows the old links | write the links to the project's remote document, so the reload shows them ("Changes will be reflected immediately") | medium; not executed | EditLinksDialog.RemoteProjectAppended | EditLinksDialog.SubmitLinksRemote |

## Left out

- Browser storage, `JSON.parse`/`JSON.stringify`, the Firestore and Storage SDKs, toasts, dialog open/close state and console logging. They become explicit state values and `available` flags. A slot that cannot be parsed is `Corrupt`.
- Stored JSON of another shape, for example an analytics record without a counter field, where `+= 1` yields `NaN`. The model's records always have every field.
- Clocks. `now` is a parameter and is not assumed to increase. Three places read the clock twice for the two timestamps of one record: `addProject` (src/utils/firebaseProjects.ts:47-48), the append branch of `saveProject` (src/utils/projectStorage.ts:84) and the default records (src/utils/projectStorage.ts:22-23, 40-41). The model uses one reading for both, so `createdAt == updatedAt` holds there in the model, while the code may differ by a millisecond.
- The URL check and `toLowerCase`. They are library functions and are passed in.
- Image files. The file reader's result is given as a string.
- Uploads. The upload is a pure function that may fail. Files already uploaded before a later upload fails are not modelled.
- Timers, polling, and the interleaving of asynchronous calls. The carousel timer is modelled as its step function only.
- The Firestore document id. `AddProject` takes a fresh id that the collection does not hold, as the backend guarantees.
- `updateProject` patches that carry `id` or `createdAt`. These are not modelled.
- The remote listing. Documents created in the same millisecond may come in any order.
- The "Show Archived" switch (src/components/ProjectsManagement.tsx:76, 208). It only chooses between the Restore and Delete menu items and filters nothing.
- The capitalised status badge text (src/components/ProjectsManagement.tsx:351). It is display text only.
- The image error fallback (src/components/ProjectsSection.tsx:108-111, src/components/ScreenshotCarousel.tsx:30-32). It depends on the browser failing to load an image.
- EditProjectDialog and PreviewProjectDialog are not part of this model.
- AddProjectDialog.SubmitForm: the status argument is an optional string. The form's own submit handler passes its event object in that position, which the model does not represent.
- ProjectStorage.DeletedRecordHidden: assumes the deletion time is a non-empty string, as every ISO-8601 text is.
- FirebaseProjects.AddedDocReadsConsistently: assumes the write time's text is non-empty, as every ISO-8601 text is.
- FirebaseProjects.ReAddRoundTrip: assumes the write time's text is non-empty, as every ISO-8601 text is.
- FirebaseProjects.UpdateThenRead: assumes the write time's text is non-empty, as every ISO-8601 text is.

=== FILE: add_project_dialog.dfy ===
/** The "add project" dialog of `src/components/AddProjectDialog.tsx`: the
    form schema, the editing helpers for the technology list and the
    screenshots, and the three ways the dialog writes a project to the
    remote collection (publish, save as draft, form submit). Image files
    are read as inline `data:image` URLs; publishing replaces each inline
    image by the URL the storage upload returns. The upload and the URL
    check are passed in as functions. */
module AddProjectDialog {
  import opened Wrappers
  import opened Seqs
  import opened ProjectTypes
  import opened FirebaseProjects

  /** How many screenshots the dialog lets the user attach. */
  const MaxScreenshots := 6

  /** The values the form starts from. */
  const DefaultForm := ProjectFormData("", "", "", [], "", [], Draft, Show, false, 0, Some(""), Some(""), Some(""))

  /** The form schema: the four texts and the technology list must be
      non-empty, the display order non-negative, and each link absent,
      empty, or a URL. */
  predicate ValidForm(f: ProjectFormData, isUrl: string -> bool) {
    && f.title != ""
    && f.shortDescription != ""
    && f.detailedDescription != ""
    && |f.techStack| >= 1
    && f.thumbnail != ""
    && f.displayOrder >= 0
    && OptionalUrl(f.liveUrl, isUrl)
    && OptionalUrl(f.githubUrl, isUrl)
    && OptionalUrl(f.demoUrl, isUrl)
  }

  /** The fresh form fails the schema, so it cannot be published as is. */
  lemma DefaultFormRejected(isUrl: string -> bool)
    ensures !ValidForm(DefaultForm, isUrl)
  {
  }

  /** No technology appears twice. */
  predicate NoDuplicates(stack: seq<string>) {
    forall i, j :: 0 <= i < j < |stack| ==> stack[i] != stack[j]
  }

  /** `addTech`: appends a non-empty technology not yet listed. */
  function AddTech(stack: seq<string>, tech: string): (r: seq<string>)
    ensures tech != "" && tech !in stack ==> r == stack + [tech]
    ensures tech == "" || tech in stack ==> r == stack
    ensures forall t :: t in r <==> t in stack || (t == tech && tech != "")
  {
    if tech != "" && tech !in stack then stack + [tech] else stack
  }

  /** Adding never creates a duplicate. */
  lemma AddTechKeepsNoDuplicates(stack: seq<string>, tech: string)
    requires NoDuplicates(stack)
    ensures NoDuplicates(AddTech(stack, tech))
  {
  }

  /** Any technology but `tech`. */
  function Except(tech: string): string -> bool {
    t => t != tech
  }

  /** `removeTech`: drops every occurrence of a technology and keeps every
      other entry, in order and with its repetitions. */
  function RemoveTech(stack: seq<string>, tech: string): (r: seq<string>)
    ensures tech !in r
    ensures forall t :: t in r <==> t in stack && t != tech
    ensures IsSubseq(r, stack)
    ensures |r| == Count(stack, Except(tech))
  {
    FilterIsSubseq(stack, Except(tech));
    FilterLength(stack, Except(tech));
    Filter(stack, Except(tech))
  }

  /** Removing a technology just added restores the list. */
  lemma AddThenRemoveTech(stack: seq<string>, tech: string)
    requires tech != "" && tech !in stack
    ensures RemoveTech(AddTech(stack, tech), tech) == stack
  {
    var keep := Except(tech);
    FilterConcat(stack, [tech], keep);
    assert Filter([tech], keep) == [];
    FilterKeepsAll(stack, keep);
  }

  /** A technology not chosen yet. */
  function Unchosen(stack: seq<string>): string -> bool {
    t => t !in stack
  }

  /** The technologies the picker still offers: the common ones not yet
      chosen, in their own order. */
  function Suggestions(common: seq<string>, stack: seq<string>): (r: seq<string>)
    ensures forall t :: t in r <==> t in common && t !in stack
    ensures IsSubseq(r, common)
    ensures |r| == Count(common, Unchosen(stack))
  {
    FilterIsSubseq(common, Unchosen(stack));
    FilterLength(common, Unchosen(stack));
    Filter(common, Unchosen(stack))
  }

  /** Choosing a suggestion always adds it, and it is then no longer
      offered. */
  lemma ChosenSuggestionLeaves(common: seq<string>, stack: seq<string>, i: nat)
    requires i < |Suggestions(common, stack)|
    requires Suggestions(common, stack)[i] != ""
    ensures var t := Suggestions(common, stack)[i];
      AddTech(stack, t) == stack + [t] && t !in Suggestions(common, AddTech(stack, t))
  {
    assert Suggestions(common, stack)[i] in Suggestions(common, stack);
  }

  /** The screenshot reader: a new image is attached only while fewer than
      the maximum are attached, since the upload control is hidden
      otherwise. */
  function AttachScreenshot(shots: seq<string>, image: string): (r: seq<string>)
    ensures shots <= r
    ensures |r| == |shots| + 1 <==> |shots| < MaxScreenshots
    ensures |r| == |shots| || |r| == |shots| + 1
    ensures |r| > |shots| ==> r[|shots|] == image
  {
    if |shots| < MaxScreenshots then shots + [image] else shots
  }

  /** `removeScreenshot`: drops the screenshot at one position; any other
      position leaves the list as it is. */
  function RemoveScreenshot(shots: seq<string>, index: int): (r: seq<string>)
    ensures 0 <= index < |shots| ==> |r| == |shots| - 1
    ensures 0 <= index < |shots| ==>
      (forall i :: 0 <= i < index ==> r[i] == shots[i]) &&
      (forall i :: index <= i < |r| ==> r[i] == shots[i + 1])
    ensures !(0 <= index < |shots|) ==> r == shots
  {
    if 0 <= index < |shots| then shots[..index] + shots[index + 1..] else shots
  }

  /** However the user attaches and removes images, a list within the
      maximum stays within it. */
  lemma ScreenshotsBounded(shots: seq<string>, image: string, index: int)
    requires |shots| <= MaxScreenshots
    ensures |AttachScreenshot(shots, image)| <= MaxScreenshots
    ensures |RemoveScreenshot(shots, index)| <= MaxScreenshots
  {
  }

  /** Removing the screenshot just attached restores the list. */
  lemma AttachThenRemove(shots: seq<string>, image: string)
    requires |shots| < MaxScreenshots
    ensures RemoveScreenshot(AttachScreenshot(shots, image), |shots|) == shots
  {
    assert (shots + [image])[..|shots|] == shots;
  }

  /** An image the file reader produced, not yet uploaded. */
  predicate IsInline(s: string) {
    "data:image" <= s
  }

  /** The URL an image ends up at: an inline image is uploaded into the
      folder, any other value is kept. */
  function Hosted(s: string, folder: string, upload: (string, string) -> Result<string, string>)
    : Result<string, string>
  {
    if IsInline(s) then upload(s, folder) else Success(s)
  }

  /** The screenshot loop of `handlePublish`: each image in order, the
      first failed upload ending the loop with its error. */
  method UploadAll(shots: seq<string>, folder: string, upload: (string, string) -> Result<string, string>)
    returns (r: Result<seq<string>, string>)
    ensures r.Success? <==> forall i :: 0 <= i < |shots| ==> Hosted(shots[i], folder, upload).Success?
    ensures r.Success? ==> |r.value| == |shots|
    ensures r.Success? ==> forall i :: 0 <= i < |shots| ==> Hosted(shots[i], folder, upload) == Success(r.value[i])
    ensures r.Failure? ==>
      exists i :: 0 <= i < |shots| && Hosted(shots[i], folder, upload) == Failure(r.error) &&
        (forall j :: 0 <= j < i ==> Hosted(shots[j], folder, upload).Success?)
  {
    var urls: seq<string> := [];
    var i := 0;
    while i < |shots|
      invariant 0 <= i <= |shots|
      invariant |urls| == i
      invariant forall j :: 0 <= j < i ==> Hosted(shots[j], folder, upload) == Success(urls[j])
    {
      var h := Hosted(shots[i], folder, upload);
      if h.Failure? {
        return Failure(h.error);
      }
      urls := urls + [h.value];
      i := i + 1;
    }
    return Success(urls);
  }

  /** Why a save did not happen. */
  datatype SaveError = Invalid | UploadFailed(message: string) | Remote(cause: RemoteError)

  /** The spread of the form values into the record `addProject` takes,
      with the status the caller chose. */
  function FormFields(f: ProjectFormData, status: string): Fields {
    Fields(
      Some(f.title), None, None, Some(f.techStack), f.githubUrl, f.liveUrl, Some(status),
      Some(f.shortDescription), Some(f.detailedDescription), Some(f.thumbnail),
      Some(f.screenshots), Some(VisibilityName(f.visibility)), Some(f.featured),
      Some(f.displayOrder), f.demoUrl)
  }

  /** `handlePublish`: validates the whole form, uploads the inline
      thumbnail and then each inline screenshot, and adds the project as
      active. Nothing is written unless every step succeeds. */
  method Publish(
    coll: Collection, f: ProjectFormData, isUrl: string -> bool,
    upload: (string, string) -> Result<string, string>,
    freshId: string, now: Instant, available: bool)
    returns (coll': Collection, r: Result<string, SaveError>)
    requires freshId !in coll
    ensures r.Failure? ==> coll' == coll
    ensures !ValidForm(f, isUrl) ==> r == Failure(Invalid)
    ensures ValidForm(f, isUrl) && Hosted(f.thumbnail, "thumbnails", upload).Failure? ==>
      r == Failure(UploadFailed(Hosted(f.thumbnail, "thumbnails", upload).error))
    ensures r.Success? <==>
      && ValidForm(f, isUrl)
      && Hosted(f.thumbnail, "thumbnails", upload).Success?
      && (forall i :: 0 <= i < |f.screenshots| ==> Hosted(f.screenshots[i], "screenshots", upload).Success?)
      && available
    ensures r.Success? ==>
      && r.value == freshId
      && coll'.Keys == coll.Keys + {freshId}
      && (forall id :: id in coll ==> coll'[id] == coll[id])
      && coll'[freshId].fields.screenshots.Some?
      && coll'[freshId] == Normalize(FormFields(f.(
           thumbnail := Hosted(f.thumbnail, "thumbnails", upload).value,
           screenshots := coll'[freshId].fields.screenshots.value), "active"), now)
      && coll'[freshId].fields.status == Some("active")
      && coll'[freshId].fields.title == Some(f.title)
      && coll'[freshId].fields.thumbnail == Some(Hosted(f.thumbnail, "thumbnails", upload).value)
      && coll'[freshId].fields.screenshots.Some?
      && |coll'[freshId].fields.screenshots.value| == |f.screenshots|
      && (forall i :: 0 <= i < |f.screenshots| ==>
            Hosted(f.screenshots[i], "screenshots", upload) == Success(coll'[freshId].fields.screenshots.value[i]))
  {
    coll' := coll;
    if !ValidForm(f, isUrl) {
      return coll, Failure(Invalid);
    }
    var thumb := Hosted(f.thumbnail, "thumbnails", upload);
    if thumb.Failure? {
      return coll, Failure(UploadFailed(thumb.error));
    }
    var shots := UploadAll(f.screenshots, "screenshots", upload);
    if shots.Failure? {
      return coll, Failure(UploadFailed(shots.error));
    }
    var out := AddProject(coll, FormFields(f.(thumbnail := thumb.value, screenshots := shots.value), "active"), freshId, now, available);
    if out.1.Failure? {
      return coll, Failure(Remote(out.1.error));
    }
    coll' := out.0;
    r := Success(out.1.value);
  }

  /** `handleSaveAsDraft`: adds the form as it stands, unvalidated and with
      its images not uploaded, as a draft. */
  function SaveAsDraft(coll: Collection, f: ProjectFormData, freshId: string, now: Instant, available: bool)
    : (out: (Collection, Result<string, SaveError>))
    requires freshId !in coll
    ensures out.1.Success? <==> available
    ensures out.1.Failure? ==> out.0 == coll && out.1 == Failure(Remote(Unavailable))
    ensures out.1.Success? ==>
      && out.1.value == freshId
      && out.0.Keys == coll.Keys + {freshId}
      && (forall id :: id in coll ==> out.0[id] == coll[id])
      && out.0[freshId] == Normalize(FormFields(f, "draft"), now)
      && out.0[freshId].fields.status == Some("draft")
      && out.0[freshId].fields.thumbnail == Some(f.thumbnail)
      && out.0[freshId].fields.screenshots == Some(f.screenshots)
  {
    var added := AddProject(coll, FormFields(f, "draft"), freshId, now, available);
    match added.1
    case Success(id) => (added.0, Success(id))
    case Failure(e) => (coll, Failure(Remote(e)))
  }

  /** Even the untouched form can be saved as a draft. */
  lemma EmptyDraftSaved(coll: Collection, freshId: string, now: Instant)
    requires freshId !in coll
    ensures SaveAsDraft(coll, DefaultForm, freshId, now, true).1 == Success(freshId)
    ensures var doc := SaveAsDraft(coll, DefaultForm, freshId, now, true).0[freshId];
      doc.fields.title == Some("") && doc.fields.status == Some("draft")
  {
  }

  /** `onSubmit` behind the form's own submit: the validated form is added
      with the status argument when one is given, else the form's status;
      images are not uploaded. */
  function SubmitForm(
    coll: Collection, f: ProjectFormData, status: Option<string>, isUrl: string -> bool,
    freshId: string, now: Instant, available: bool)
    : (out: (Collection, Result<string, SaveError>))
    requires freshId !in coll
    ensures out.1.Failure? ==> out.0 == coll
    ensures out.1.Success? <==> ValidForm(f, isUrl) && available
    ensures !ValidForm(f, isUrl) ==> out.1 == Failure(Invalid)
    ensures out.1.Success? ==>
      && out.1.value == freshId
      && out.0.Keys == coll.Keys + {freshId}
      && (forall id :: id in coll ==> out.0[id] == coll[id])
      && out.0[freshId] == Normalize(FormFields(f, OptOrElse(status, StatusName(f.status))), now)
      && out.0[freshId].fields.status == Some(OptOrElse(status, StatusName(f.status)))
      && out.0[freshId].fields.thumbnail == Some(f.thumbnail)
      && out.0[freshId].fields.screenshots == Some(f.screenshots)
  {
    if !ValidForm(f, isUrl) then (coll, Failure(Invalid))
    else
      var added := AddProject(coll, FormFields(f, OptOrElse(status, StatusName(f.status))), freshId, now, available);
      match added.1
      case Success(id) => (added.0, Success(id))
      case Failure(e) => (coll, Failure(Remote(e)))
  }

  /** A valid form submitted with the draft status is stored exactly as
      "save as draft" stores it. */
  lemma SubmitDraftIsSaveAsDraft(
    coll: Collection, f: ProjectFormData, isUrl: string -> bool,
    freshId: string, now: Instant, available: bool)
    requires freshId !in coll && ValidForm(f, isUrl)
    ensures SubmitForm(coll, f, Some("draft"), isUrl, freshId, now, available)
      == SaveAsDraft(coll, f, freshId, now, available)
  {
  }

  /** A saved draft reads back with the form's texts, tags, images and
      links, and with the draft status. */
  lemma DraftReadsBack(coll: Collection, f: ProjectFormData, freshId: string, now: Instant, later: Instant)
    requires freshId !in coll
    ensures var p := ReadDoc(freshId, SaveAsDraft(coll, f, freshId, now, true).0[freshId], later);
      && p.id == freshId && p.title == f.title && p.status == "draft"
      && p.shortDescription == f.shortDescription && p.detailedDescription == f.detailedDescription
      && p.techStack == f.techStack && p.thumbnail == f.thumbnail && p.screenshots == f.screenshots
      && p.liveUrl == OptOrElse(f.liveUrl, "") && p.githubUrl == OptOrElse(f.githubUrl, "")
      && p.featured == f.featured && p.displayOrder == f.displayOrder
  {
  }
}

=== FILE: badges.dfy ===
/** The technology tags of a project row or card: the first few tags, then
    one "+n" badge counting the rest. The admin table shows three, the
    public cards six. */
module Badges {
  import opened Wrappers

  const AdminTagLimit: nat := 3
  const PublicTagLimit: nat := 6

  /** The tags shown and the number on the "+n" badge, if there is one. */
  datatype TagRow = TagRow(shown: seq<string>, more: Option<nat>)

  /** `techStack.slice(0, limit)` followed by `+(length - limit)` when the
      list is longer than the limit. */
  function TagBadges(stack: seq<string>, limit: nat): (r: TagRow)
    ensures r.shown <= stack
    ensures |r.shown| <= limit
    ensures |stack| > limit ==> |r.shown| == limit
    ensures r.more.Some? <==> |stack| > limit
    ensures r.more.Some? ==> r.more.value > 0
    ensures |r.shown| + r.more.GetOr(0) == |stack|
  {
    if |stack| <= limit then TagRow(stack, None)
    else TagRow(stack[..limit], Some(|stack| - limit))
  }

  /** The admin row shows a prefix of what the public card shows, and it
      shows a "+n" badge whenever the card does. */
  lemma AdminRowWithinPublicCard(stack: seq<string>)
    ensures TagBadges(stack, AdminTagLimit).shown <= TagBadges(stack, PublicTagLimit).shown
    ensures TagBadges(stack, PublicTagLimit).more.Some? ==> TagBadges(stack, AdminTagLimit).more.Some?
  {
  }
}

=== FILE: edit_links_dialog.dfy ===
/** The "edit links" dialog of `src/components/EditLinksDialog.tsx`: three
    link fields pre-filled from the project, validated, spread over the
    project and saved through the device-local store. The URL check is a
    library predicate and is passed in. */
module EditLinksDialog {
  import opened Wrappers
  import opened ProjectTypes
  import opened ProjectStorage
  import FirebaseProjects

  datatype LinksForm = LinksForm(liveUrl: string, githubUrl: string, demoUrl: string)

  /** The pre-filled values: each stored link, or the empty string. */
  function DefaultLinks(p: Project): (f: LinksForm)
    ensures f.liveUrl == OptOrElse(p.liveUrl, "")
    ensures f.githubUrl == OptOrElse(p.githubUrl, "")
    ensures f.demoUrl == OptOrElse(p.demoUrl, "")
  {
    LinksForm(OptOrElse(p.liveUrl, ""), OptOrElse(p.githubUrl, ""), OptOrElse(p.demoUrl, ""))
  }

  /** The links schema: each field empty or a URL. */
  predicate ValidLinks(f: LinksForm, isUrl: string -> bool) {
    OptionalUrl(Some(f.liveUrl), isUrl) && OptionalUrl(Some(f.githubUrl), isUrl) && OptionalUrl(Some(f.demoUrl), isUrl)
  }

  /** The untouched form passes validation exactly when the stored links
      already do. */
  lemma DefaultLinksValid(p: Project, isUrl: string -> bool)
    ensures ValidLinks(DefaultLinks(p), isUrl) <==>
      OptionalUrl(p.liveUrl, isUrl) && OptionalUrl(p.githubUrl, isUrl) && OptionalUrl(p.demoUrl, isUrl)
  {
  }

  /** `{ ...project, ...data, updatedAt }`: the three links replaced, every
      other field kept. */
  function ApplyLinks(p: Project, f: LinksForm, now: Timestamp): (q: Project)
    ensures q.liveUrl == Some(f.liveUrl) && q.githubUrl == Some(f.githubUrl) && q.demoUrl == Some(f.demoUrl)
    ensures q.(liveUrl := p.liveUrl, githubUrl := p.githubUrl, demoUrl := p.demoUrl, updatedAt := p.updatedAt) == p
  {
    p.(liveUrl := Some(f.liveUrl), githubUrl := Some(f.githubUrl), demoUrl := Some(f.demoUrl), updatedAt := now)
  }

  /** Submitting the form: nothing happens when validation fails; otherwise
      the edited project is saved, and reading it back by id gives it with
      the new links. */
  function SubmitLinks(d: Device, p: Project, f: LinksForm, isUrl: string -> bool, env: Env): (d': Device)
    ensures !ValidLinks(f, isUrl) ==> d' == d
    ensures ValidLinks(f, isUrl) ==>
      && GetProject(d', p.id).Some?
      && GetProject(d', p.id).value.liveUrl == Some(f.liveUrl)
      && GetProject(d', p.id).value.githubUrl == Some(f.githubUrl)
      && GetProject(d', p.id).value.demoUrl == Some(f.demoUrl)
      && GetProject(d', p.id).value.title == p.title
      && GetProject(d', p.id).value.updatedAt == env.now
      && CountersInSync(d', env.fallback)
      && SameEventCounters(GetAnalytics(d', env.fallback), GetAnalytics(d, env.fallback))
    ensures ValidLinks(f, isUrl) && FindIndex(GetAllProjects(d), p.id).Some? ==>
      var i, before, after := FindIndex(GetAllProjects(d), p.id).value, GetAllProjects(d), GetAllProjects(d');
      && |after| == |before|
      && forall j :: 0 <= j < |before| && j != i ==> after[j] == before[j]
    ensures ValidLinks(f, isUrl) && FindIndex(GetAllProjects(d), p.id).None? ==>
      var before, after := GetAllProjects(d), GetAllProjects(d');
      && |after| == |before| + 1
      && after[..|before|] == before
  {
    if !ValidLinks(f, isUrl) then d
    else
      var q := ApplyLinks(p, f, env.now);
      SaveThenGet(d, q, env);
      SaveProject(d, q, env)
  }

  /** Saving the untouched form only turns absent links into empty ones. */
  lemma UntouchedFormNormalisesLinks(p: Project, now: Timestamp)
    ensures var q := ApplyLinks(p, DefaultLinks(p), now);
      && (p.liveUrl.Some? ==> q.liveUrl == p.liveUrl)
      && (p.liveUrl.None? ==> q.liveUrl == Some(""))
      && (p.githubUrl.Some? ==> q.githubUrl == p.githubUrl)
      && (p.demoUrl.Some? ==> q.demoUrl == p.demoUrl)
  {
  }

  /** A project the admin table loaded from the remote collection has an id
      the device-local store does not hold, so saving its links adds a new
      local record instead of changing the remote one. */
  lemma RemoteProjectAppended(d: Device, p: Project, f: LinksForm, isUrl: string -> bool, env: Env)
    requires ValidLinks(f, isUrl)
    requires forall q :: q in GetAllProjects(d) ==> q.id != p.id
    ensures var all' := GetAllProjects(SubmitLinks(d, p, f, isUrl, env));
      && |all'| == |GetAllProjects(d)| + 1
      && all'[|GetAllProjects(d)|].id == p.id
      && all'[|GetAllProjects(d)|].liveUrl == Some(f.liveUrl)
      && all'[|GetAllProjects(d)|].createdAt == env.now
  {
    assert FindIndex(GetAllProjects(d), p.id).None?;
  }

  /** Why a remote links edit did not happen. */
  datatype LinksError = InvalidLinks | Remote(cause: FirebaseProjects.RemoteError)

  /** The edit the admin table needs: the three links written to the
      project's remote document, the document the table lists. */
  function SubmitLinksRemote(
    coll: FirebaseProjects.Collection, p: FirebaseProjects.RemoteProject, f: LinksForm,
    isUrl: string -> bool, now: FirebaseProjects.Instant, available: bool)
    : (out: (FirebaseProjects.Collection, Result<(), LinksError>))
    ensures out.1.Failure? ==> out.0 == coll
    ensures !ValidLinks(f, isUrl) ==> out.1 == Failure(InvalidLinks)
    ensures out.1.Success? <==> ValidLinks(f, isUrl) && available && p.id in coll
    ensures out.1.Success? ==>
      && p.id in coll && p.id in out.0
      && out.0.Keys == coll.Keys
      && (forall other :: other in coll && other != p.id ==> out.0[other] == coll[other])
      && out.0[p.id].fields == coll[p.id].fields.(liveUrl := Some(f.liveUrl), githubUrl := Some(f.githubUrl), demoUrl := Some(f.demoUrl))
  {
    if !ValidLinks(f, isUrl) then (coll, Failure(InvalidLinks))
    else
      var patch := FirebaseProjects.NoFields.(liveUrl := Some(f.liveUrl), githubUrl := Some(f.githubUrl), demoUrl := Some(f.demoUrl));
      var updated := FirebaseProjects.UpdateProject(coll, p.id, patch, now, available);
      match updated.1
      case Success(_) => (updated.0, Success(()))
      case Failure(e) => (coll, Failure(Remote(e)))
  }

  /** After a remote links edit the admin table, reading the document
      again, shows exactly the submitted links. */
  lemma RemoteEditShowsLinks(
    coll: FirebaseProjects.Collection, p: FirebaseProjects.RemoteProject, f: LinksForm,
    isUrl: string -> bool, now: FirebaseProjects.Instant, later: FirebaseProjects.Instant)
    requires ValidLinks(f, isUrl) && p.id in coll
    ensures var coll' := SubmitLinksRemote(coll, p, f, isUrl, now, true).0;
      var r := FirebaseProjects.ReadDoc(p.id, coll'[p.id], later);
      r.liveUrl == f.liveUrl && r.githubUrl == f.githubUrl && r.demoUrl == f.demoUrl
  {
  }
}

=== FILE: firebase_analytics.dfy ===
/** The remote event log of `src/utils/firebaseAnalytics.ts`: each tracked
    event appends one document to the `analytics` collection, and the
    dashboard's counters are recomputed by scanning every document and
    counting the three recognised kinds. The collection is a log in
    insertion order; a failed write or read is swallowed. */
module FirebaseAnalytics {
  import opened Wrappers

  /** One document of the collection. `timestamp` is the client's clock in
      milliseconds; `projectId` is written only for a view, `userAgent`
      only for a visit. */
  datatype Event = Event(kind: string, timestamp: int, projectId: Option<string>, userAgent: Option<string>)

  type Log = seq<Event>

  /** The three counters the dashboard shows. */
  datatype AnalyticsData = AnalyticsData(visitors: nat, formSubmissions: nat, projectViews: nat)

  const VisitorKind := "visitor"
  const FormKind := "form_submission"
  const ViewKind := "project_view"

  /** How many events of the log have this kind. */
  function CountKind(log: Log, kind: string): (n: nat)
    ensures n <= |log|
  {
    if log == [] then 0
    else CountKind(log[..|log| - 1], kind) + (if log[|log| - 1].kind == kind then 1 else 0)
  }

  /** The counters a log stands for: one per recognised kind, every other
      kind ignored. */
  function Counts(log: Log): AnalyticsData {
    AnalyticsData(CountKind(log, VisitorKind), CountKind(log, FormKind), CountKind(log, ViewKind))
  }

  /** Appending one event adds one to the count of its own kind only. */
  lemma CountKindAppend(log: Log, e: Event, kind: string)
    ensures CountKind(log + [e], kind) == CountKind(log, kind) + (if e.kind == kind then 1 else 0)
  {
    assert (log + [e])[..|log|] == log;
  }

  /** `addDoc` of one event, or nothing when the write fails. */
  function Append(log: Log, e: Event, available: bool): (log': Log)
    ensures available ==> |log'| == |log| + 1 && log'[..|log|] == log && log'[|log|] == e
    ensures !available ==> log' == log
    ensures available ==> forall k :: CountKind(log', k) == CountKind(log, k) + (if e.kind == k then 1 else 0)
  {
    if available then
      var log' := log + [e];
      assert forall k :: CountKind(log', k) == CountKind(log, k) + (if e.kind == k then 1 else 0) by {
        forall k { CountKindAppend(log, e, k); }
      }
      log'
    else log
  }

  /** A visit, recorded with the browser's user agent. */
  function TrackVisitor(log: Log, now: int, userAgent: string, available: bool): (log': Log)
    ensures available ==> Counts(log') == Counts(log).(visitors := Counts(log).visitors + 1)
    ensures available ==> |log'| == |log| + 1 && log'[..|log|] == log && log'[|log|].userAgent == Some(userAgent) && log'[|log|].timestamp == now
    ensures !available ==> log' == log
  {
    Append(log, Event(VisitorKind, now, None, Some(userAgent)), available)
  }

  /** A contact-form submission. */
  function TrackFormSubmission(log: Log, now: int, available: bool): (log': Log)
    ensures available ==> Counts(log') == Counts(log).(formSubmissions := Counts(log).formSubmissions + 1)
    ensures available ==> |log'| == |log| + 1 && log'[..|log|] == log && log'[|log|].timestamp == now
    ensures !available ==> log' == log
  {
    Append(log, Event(FormKind, now, None, None), available)
  }

  /** A click-through to one project, recorded with its id. */
  function TrackProjectView(log: Log, projectId: string, now: int, available: bool): (log': Log)
    ensures available ==> Counts(log') == Counts(log).(projectViews := Counts(log).projectViews + 1)
    ensures available ==> |log'| == |log| + 1 && log'[..|log|] == log && log'[|log|].projectId == Some(projectId) && log'[|log|].timestamp == now
    ensures !available ==> log' == log
  {
    Append(log, Event(ViewKind, now, Some(projectId), None), available)
  }

  /** The scan the dashboard runs: one pass over the documents with a
      switch on the kind; zero counters when the read fails. */
  method GetAnalytics(log: Log, available: bool) returns (r: AnalyticsData)
    ensures available ==> r == Counts(log)
    ensures !available ==> r == AnalyticsData(0, 0, 0)
  {
    if !available {
      return AnalyticsData(0, 0, 0);
    }
    var visitors, formSubmissions, projectViews := 0, 0, 0;
    var i := 0;
    while i < |log|
      invariant 0 <= i <= |log|
      invariant visitors == CountKind(log[..i], VisitorKind)
      invariant formSubmissions == CountKind(log[..i], FormKind)
      invariant projectViews == CountKind(log[..i], ViewKind)
    {
      assert log[..i + 1][..i] == log[..i];
      var kind := log[i].kind;
      if kind == VisitorKind {
        visitors := visitors + 1;
      } else if kind == FormKind {
        formSubmissions := formSubmissions + 1;
      } else if kind == ViewKind {
        projectViews := projectViews + 1;
      }
      i := i + 1;
    }
    assert log[..i] == log;
    r := AnalyticsData(visitors, formSubmissions, projectViews);
  }

  /** Every recognised event is counted once and once only, so the three
      counters together never exceed the number of documents. */
  lemma {:induction false} CountsBounded(log: Log)
    ensures Counts(log).visitors + Counts(log).formSubmissions + Counts(log).projectViews <= |log|
  {
    if log != [] {
      CountsBounded(log[..|log| - 1]);
    }
  }

  /** Documents of any other kind leave the counters unchanged. */
  lemma OtherKindsIgnored(log: Log, e: Event)
    requires e.kind != VisitorKind && e.kind != FormKind && e.kind != ViewKind
    ensures Counts(log + [e]) == Counts(log)
  {
    CountKindAppend(log, e, VisitorKind);
    CountKindAppend(log, e, FormKind);
    CountKindAppend(log, e, ViewKind);
  }

  /** The counters depend on the multiset of kinds, not on the order the
      documents come back in: swapping two neighbours changes nothing. */
  lemma {:induction false} CountKindSwap(log: Log, i: nat, kind: string)
    requires i + 1 < |log|
    ensures CountKind(log[i := log[i + 1]][i + 1 := log[i]], kind) == CountKind(log, kind)
  {
    var sw := log[i := log[i + 1]][i + 1 := log[i]];
    if i + 2 < |log| {
      assert sw[..|sw| - 1] == log[..|log| - 1][i := log[i + 1]][i + 1 := log[i]];
      CountKindSwap(log[..|log| - 1], i, kind);
    } else {
      assert sw[..|sw| - 1][..i] == log[..|log| - 1][..i];
      assert sw[..|sw| - 1] == log[..i] + [log[i + 1]];
      assert log[..|log| - 1] == log[..i] + [log[i]];
      assert log[..i] + [log[i + 1]] + [log[i]] == sw;
      CountKindAppend(log[..i], log[i + 1], kind);
      CountKindAppend(log[..i], log[i], kind);
      CountKindAppend(log[..i] + [log[i + 1]], log[i], kind);
      CountKindAppend(log[..i] + [log[i]], log[i + 1], kind);
      assert log == log[..i] + [log[i]] + [log[i + 1]];
    }
  }
}

=== FILE: firebase_projects.dfy ===
/** The remote project collection of `src/utils/firebaseProjects.ts`. A
    document is a schemaless bag of fields: `addProject` writes every field
    after defaulting the caller's loosely typed input, `updateProject`
    overlays a partial record, `deleteProject` removes the document, and
    `getProjects` lists the documents newest first, filling the fields it
    finds missing or empty. The collection is a map from document id to
    document; a failed call is the `Unavailable` error. */
module FirebaseProjects {
  import opened Wrappers
  import opened ProjectTypes

  /** A client clock reading: milliseconds for the `createdAt` sort key and
      the ISO-8601 text the `updatedAt` field holds. */
  datatype Instant = Instant(millis: int, iso: Timestamp)

  /** A loosely typed project record: the argument of `addProject`, the
      partial record `updateProject` merges, and the fields a stored
      document holds. Any field may be absent. */
  datatype Fields = Fields(
    title: Option<string>,
    description: Option<string>,
    image: Option<string>,
    techStack: Option<seq<string>>,
    githubUrl: Option<string>,
    liveUrl: Option<string>,
    status: Option<string>,
    shortDescription: Option<string>,
    detailedDescription: Option<string>,
    thumbnail: Option<string>,
    screenshots: Option<seq<string>>,
    visibility: Option<string>,
    featured: Option<bool>,
    displayOrder: Option<int>,
    demoUrl: Option<string>)

  /** The record carrying no field. */
  const NoFields := Fields(None, None, None, None, None, None, None, None, None, None, None, None, None, None, None)

  /** A stored document: its fields plus the two timestamps. */
  datatype Doc = Doc(fields: Fields, createdAt: Option<int>, updatedAt: Option<Timestamp>)

  type Collection = map<string, Doc>

  /** Why a remote call was rejected: the backend could not be reached, or
      the document to update does not exist. */
  datatype RemoteError = Unavailable | NotFound

  /** A project as the listing returns it: every field present. */
  datatype RemoteProject = RemoteProject(
    id: string,
    title: string,
    description: string,
    image: string,
    techStack: seq<string>,
    githubUrl: string,
    liveUrl: string,
    status: string,
    createdAt: int,
    shortDescription: string,
    detailedDescription: string,
    thumbnail: string,
    screenshots: seq<string>,
    visibility: string,
    featured: bool,
    displayOrder: int,
    demoUrl: string,
    updatedAt: Timestamp)

  /** The document `addProject` writes: each field defaulted, the short
      description doubling as the description and the thumbnail as the
      image, both timestamps set to `now`. */
  function Normalize(input: Fields, now: Instant): (doc: Doc)
    ensures doc.createdAt == Some(now.millis) && doc.updatedAt == Some(now.iso)
    ensures doc.fields.description == Some(OptOrElse(input.shortDescription, OptOrElse(input.description, "")))
    ensures doc.fields.image == Some(OptOrElse(input.thumbnail, OptOrElse(input.image, "")))
    ensures doc.fields.status == Some(OptOrElse(input.status, "active"))
    ensures doc.fields.visibility == Some(OptOrElse(input.visibility, "show"))
    ensures doc.fields.shortDescription == Some(OptOrElse(input.shortDescription, ""))
    ensures doc.fields.thumbnail == Some(OptOrElse(input.thumbnail, ""))
  {
    Doc(
      Fields(
        Some(OptOrElse(input.title, "")),
        Some(OptOrElse(input.shortDescription, OptOrElse(input.description, ""))),
        Some(OptOrElse(input.thumbnail, OptOrElse(input.image, ""))),
        Some(input.techStack.GetOr([])),
        Some(OptOrElse(input.githubUrl, "")),
        Some(OptOrElse(input.liveUrl, "")),
        Some(OptOrElse(input.status, "active")),
        Some(OptOrElse(input.shortDescription, "")),
        Some(OptOrElse(input.detailedDescription, "")),
        Some(OptOrElse(input.thumbnail, "")),
        Some(input.screenshots.GetOr([])),
        Some(OptOrElse(input.visibility, "show")),
        Some(input.featured.GetOr(false)),
        Some(input.displayOrder.GetOr(0)),
        Some(OptOrElse(input.demoUrl, ""))),
      Some(now.millis),
      Some(now.iso))
  }

  /** Every field of an added document is present; absent or empty texts
      become the empty string, absent lists the empty list, and the status,
      visibility, featured flag and display order take their defaults. */
  lemma NormalizeDefaults(input: Fields, now: Instant)
    ensures var f := Normalize(input, now).fields;
      && f.title.Some? && f.description.Some? && f.image.Some? && f.techStack.Some?
      && f.githubUrl.Some? && f.liveUrl.Some? && f.status.Some? && f.shortDescription.Some?
      && f.detailedDescription.Some? && f.thumbnail.Some? && f.screenshots.Some?
      && f.visibility.Some? && f.featured.Some? && f.displayOrder.Some? && f.demoUrl.Some?
    ensures var f := Normalize(input, now).fields;
      && (input.title.None? ==> f.title == Some(""))
      && (input.githubUrl.None? ==> f.githubUrl == Some(""))
      && (input.liveUrl.None? ==> f.liveUrl == Some(""))
      && (input.demoUrl.None? ==> f.demoUrl == Some(""))
      && (input.detailedDescription.None? ==> f.detailedDescription == Some(""))
      && (input.techStack.None? ==> f.techStack == Some([]))
      && (input.screenshots.None? ==> f.screenshots == Some([]))
      && (input.status.None? ==> f.status == Some("active"))
      && (input.visibility.None? ==> f.visibility == Some("show"))
      && (input.featured.None? ==> f.featured == Some(false))
      && (input.displayOrder.None? ==> f.displayOrder == Some(0))
      && (input.title.Some? ==> f.title == Some(input.title.value))
      && (input.techStack.Some? ==> f.techStack == input.techStack)
  {
  }

  /** The record `getProjects` builds from one document: empty or missing
      descriptions and images fall back on each other, the status on
      "active", the visibility on "show", and the two timestamps on the
      reader's clock. */
  function ReadDoc(id: string, doc: Doc, now: Instant): (p: RemoteProject)
    ensures p.id == id
    ensures p.description == OptOrElse(doc.fields.description, OptOrElse(doc.fields.shortDescription, ""))
    ensures p.shortDescription == OptOrElse(doc.fields.shortDescription, OptOrElse(doc.fields.description, ""))
    ensures p.image == OptOrElse(doc.fields.image, OptOrElse(doc.fields.thumbnail, ""))
    ensures p.thumbnail == OptOrElse(doc.fields.thumbnail, OptOrElse(doc.fields.image, ""))
    ensures p.status != "" && p.visibility != ""
    ensures p.createdAt == doc.createdAt.GetOr(now.millis)
  {
    var f := doc.fields;
    RemoteProject(
      id,
      OptOrElse(f.title, ""),
      OptOrElse(f.description, OptOrElse(f.shortDescription, "")),
      OptOrElse(f.image, OptOrElse(f.thumbnail, "")),
      f.techStack.GetOr([]),
      OptOrElse(f.githubUrl, ""),
      OptOrElse(f.liveUrl, ""),
      OptOrElse(f.status, "active"),
      doc.createdAt.GetOr(now.millis),
      OptOrElse(f.shortDescription, OptOrElse(f.description, "")),
      OptOrElse(f.detailedDescription, ""),
      OptOrElse(f.thumbnail, OptOrElse(f.image, "")),
      f.screenshots.GetOr([]),
      OptOrElse(f.visibility, "show"),
      f.featured.GetOr(false),
      f.displayOrder.GetOr(0),
      OptOrElse(f.demoUrl, ""),
      OptOrElse(doc.updatedAt, now.iso))
  }

  /** `addProject`: stores the defaulted document under the id the backend
      picks and returns that id. The backend's ids are fresh. */
  function AddProject(coll: Collection, input: Fields, freshId: string, now: Instant, available: bool)
    : (out: (Collection, Result<string, RemoteError>))
    requires freshId !in coll
    ensures !available ==> out.0 == coll && out.1 == Failure(Unavailable)
    ensures available ==>
      && out.1 == Success(freshId)
      && out.0.Keys == coll.Keys + {freshId}
      && (forall id :: id in coll ==> out.0[id] == coll[id])
      && out.0[freshId] == Normalize(input, now)
      && out.0[freshId].createdAt == Some(now.millis)
  {
    if !available then (coll, Failure(Unavailable))
    else (coll[freshId := Normalize(input, now)], Success(freshId))
  }

  /** `{ ...current, ...updates }` on the fields: each field the patch
      carries replaces the stored one. */
  function Overlay(base: Fields, patch: Fields): Fields {
    Fields(
      if patch.title.Some? then patch.title else base.title,
      if patch.description.Some? then patch.description else base.description,
      if patch.image.Some? then patch.image else base.image,
      if patch.techStack.Some? then patch.techStack else base.techStack,
      if patch.githubUrl.Some? then patch.githubUrl else base.githubUrl,
      if patch.liveUrl.Some? then patch.liveUrl else base.liveUrl,
      if patch.status.Some? then patch.status else base.status,
      if patch.shortDescription.Some? then patch.shortDescription else base.shortDescription,
      if patch.detailedDescription.Some? then patch.detailedDescription else base.detailedDescription,
      if patch.thumbnail.Some? then patch.thumbnail else base.thumbnail,
      if patch.screenshots.Some? then patch.screenshots else base.screenshots,
      if patch.visibility.Some? then patch.visibility else base.visibility,
      if patch.featured.Some? then patch.featured else base.featured,
      if patch.displayOrder.Some? then patch.displayOrder else base.displayOrder,
      if patch.demoUrl.Some? then patch.demoUrl else base.demoUrl)
  }

  /** The empty patch changes nothing, a patch applied twice is applied
      once, and two patches in a row are one merged patch. */
  lemma OverlayLaws(base: Fields, p: Fields, q: Fields)
    ensures Overlay(base, NoFields) == base
    ensures Overlay(Overlay(base, p), p) == Overlay(base, p)
    ensures Overlay(Overlay(base, p), q) == Overlay(base, Overlay(p, q))
  {
  }

  /** `updateProject`: merges the patch into an existing document and
      stamps `updatedAt`; the document's creation time is kept. A missing
      document is rejected. */
  function UpdateProject(coll: Collection, id: string, patch: Fields, now: Instant, available: bool)
    : (out: (Collection, Result<(), RemoteError>))
    ensures out.1.Failure? ==> out.0 == coll
    ensures out.1.Failure? <==> !available || id !in coll
    ensures available && id !in coll ==> out.1 == Failure(NotFound)
    ensures out.1.Success? ==>
      && id in coll && id in out.0
      && out.0.Keys == coll.Keys
      && (forall other :: other in coll && other != id ==> out.0[other] == coll[other])
      && out.0[id].fields == Overlay(coll[id].fields, patch)
      && out.0[id].createdAt == coll[id].createdAt
      && out.0[id].updatedAt == Some(now.iso)
  {
    if !available then (coll, Failure(Unavailable))
    else if id !in coll then (coll, Failure(NotFound))
    else
      var doc := coll[id];
      (coll[id := Doc(Overlay(doc.fields, patch), doc.createdAt, Some(now.iso))], Success(()))
  }

  /** Two successive updates of a document are one update with the merged
      patch, stamped with the later time. */
  lemma UpdatesCompose(coll: Collection, id: string, p: Fields, q: Fields, first: Instant, second: Instant)
    requires id in coll
    ensures UpdateProject(UpdateProject(coll, id, p, first, true).0, id, q, second, true).0
      == UpdateProject(coll, id, Overlay(p, q), second, true).0
  {
    OverlayLaws(coll[id].fields, p, q);
  }

  /** `deleteProject`: removes the document; deleting an id that is not
      there succeeds. */
  function DeleteProject(coll: Collection, id: string, available: bool)
    : (out: (Collection, Result<(), RemoteError>))
    ensures !available ==> out.0 == coll && out.1 == Failure(Unavailable)
    ensures available ==> out.1.Success? && out.0.Keys == coll.Keys - {id}
    ensures available ==> forall other :: other in out.0 ==> out.0[other] == coll[other]
  {
    if !available then (coll, Failure(Unavailable))
    else (coll - {id}, Success(()))
  }

  /** A document the `orderBy('createdAt')` query returns: one lacking the
      field is left out of the results. */
  predicate Listed(coll: Collection, id: string) {
    id in coll && coll[id].createdAt.Some?
  }

  /** Newest first: `createdAt` never increases along the list. */
  predicate NewestFirst(ps: seq<RemoteProject>) {
    forall i, j :: 0 <= i < j < |ps| ==> ps[i].createdAt >= ps[j].createdAt
  }

  /** What `getProjects` may return: every listed document exactly once,
      each read as `ReadDoc` reads it, newest first. Documents created in
      the same millisecond may come in any order. */
  ghost predicate IsListing(coll: Collection, now: Instant, ps: seq<RemoteProject>) {
    && NewestFirst(ps)
    && (forall i :: 0 <= i < |ps| ==> ReadsAs(coll, now, ps[i]))
    && (forall i, j :: 0 <= i < j < |ps| ==> ps[i].id != ps[j].id)
    && (forall id :: Listed(coll, id) ==> exists i :: 0 <= i < |ps| && ps[i].id == id)
  }

  /** Where a record goes in a newest-first list: after every record at
      least as new. */
  function InsertPos(ps: seq<RemoteProject>, p: RemoteProject): (k: nat)
    requires NewestFirst(ps)
    ensures k <= |ps|
    ensures forall i :: 0 <= i < k ==> ps[i].createdAt >= p.createdAt
    ensures forall i :: k <= i < |ps| ==> ps[i].createdAt < p.createdAt
  {
    if ps == [] || ps[0].createdAt < p.createdAt then 0
    else 1 + InsertPos(ps[1..], p)
  }

  /** `p` is the read of a listed document under its own id. */
  ghost predicate ReadsAs(coll: Collection, now: Instant, p: RemoteProject) {
    Listed(coll, p.id) && p == ReadDoc(p.id, coll[p.id], now)
  }

  /** The loop state of the listing: `ps` is a listing of the documents
      in `done`. */
  ghost predicate PartialListing(coll: Collection, now: Instant, ps: seq<RemoteProject>, done: set<string>) {
    && NewestFirst(ps)
    && (forall i :: 0 <= i < |ps| ==> ps[i].id in done && ReadsAs(coll, now, ps[i]))
    && (forall i, j :: 0 <= i < j < |ps| ==> ps[i].id != ps[j].id)
    && (forall id :: id in done ==> exists i :: 0 <= i < |ps| && ps[i].id == id)
  }

  /** Inserting at `InsertPos` keeps a list newest first and shifts the
      later records up by one. */
  lemma InsertSorted(ps: seq<RemoteProject>, p: RemoteProject)
    requires NewestFirst(ps)
    ensures var k := InsertPos(ps, p);
      var ps' := ps[..k] + [p] + ps[k..];
      && NewestFirst(ps')
      && |ps'| == |ps| + 1
      && ps'[k] == p
      && (forall i :: 0 <= i < k ==> ps'[i] == ps[i])
      && (forall i :: k < i < |ps'| ==> ps'[i] == ps[i - 1])
  {
    var k := InsertPos(ps, p);
    var ps' := ps[..k] + [p] + ps[k..];
    assert forall i :: 0 <= i < k ==> ps'[i] == ps[i];
    assert forall i :: k < i < |ps'| ==> ps'[i] == ps[i - 1];
    forall i, j | 0 <= i < j < |ps'| ensures ps'[i].createdAt >= ps'[j].createdAt {
      if j < k {
        assert ps'[i] == ps[i] && ps'[j] == ps[j];
      } else if j == k {
        assert ps'[i] == ps[i];
      } else if i < k {
        assert ps'[i] == ps[i] && ps'[j] == ps[j - 1];
      } else if i > k {
        assert ps'[i] == ps[i - 1] && ps'[j] == ps[j - 1];
      }
    }
  }

  /** Inserting one more document where `InsertPos` says keeps the loop
      state. */
  lemma InsertStep(coll: Collection, now: Instant, ps: seq<RemoteProject>, done: set<string>, id: string)
    requires PartialListing(coll, now, ps, done)
    requires Listed(coll, id) && id !in done
    ensures var p := ReadDoc(id, coll[id], now);
      var k := InsertPos(ps, p);
      PartialListing(coll, now, ps[..k] + [p] + ps[k..], done + {id})
  {
    var p := ReadDoc(id, coll[id], now);
    var k := InsertPos(ps, p);
    var ps' := ps[..k] + [p] + ps[k..];
    InsertSorted(ps, p);
    assert ReadsAs(coll, now, p);
    forall i | 0 <= i < |ps'| ensures ps'[i].id in done + {id} && ReadsAs(coll, now, ps'[i]) {
      if i < k { assert ps'[i] == ps[i]; } else if i > k { assert ps'[i] == ps[i - 1]; }
    }
    forall i, j | 0 <= i < j < |ps'| ensures ps'[i].id != ps'[j].id {
      if j < k {
        assert ps'[i] == ps[i] && ps'[j] == ps[j];
      } else if j == k {
        assert ps'[i] == ps[i];
      } else if i < k {
        assert ps'[i] == ps[i] && ps'[j] == ps[j - 1];
      } else if i == k {
        assert ps'[j] == ps[j - 1];
      } else {
        assert ps'[i] == ps[i - 1] && ps'[j] == ps[j - 1];
      }
    }
    forall x | x in done + {id} ensures exists i :: 0 <= i < |ps'| && ps'[i].id == x {
      if x == id {
        assert ps'[k].id == x;
      } else {
        var i :| 0 <= i < |ps| && ps[i].id == x;
        if i < k { assert ps'[i].id == x; } else { assert ps'[i + 1].id == x; }
      }
    }
  }

  /** `getProjects`: the query result, or an empty list when the read
      fails. */
  method ListProjects(coll: Collection, now: Instant, available: bool) returns (ps: seq<RemoteProject>)
    ensures !available ==> ps == []
    ensures available ==> IsListing(coll, now, ps)
  {
    if !available {
      return [];
    }
    ps := [];
    var remaining := set id | id in coll && coll[id].createdAt.Some?;
    ghost var done: set<string> := {};
    while remaining != {}
      invariant remaining !! done
      invariant forall id :: Listed(coll, id) <==> id in remaining || id in done
      invariant PartialListing(coll, now, ps, done)
      decreases |remaining|
    {
      var id :| id in remaining;
      InsertStep(coll, now, ps, done, id);
      var p := ReadDoc(id, coll[id], now);
      var k := InsertPos(ps, p);
      ps := ps[..k] + [p] + ps[k..];
      remaining := remaining - {id};
      done := done + {id};
    }
  }

  /** Reading a freshly added document shows the same text as description
      and short description, and the same picture as image and thumbnail,
      whichever of each pair the caller supplied. */
  lemma AddedDocReadsConsistently(input: Fields, id: string, now: Instant, later: Instant)
    requires now.iso != ""
    ensures var p := ReadDoc(id, Normalize(input, now), later);
      && p.description == p.shortDescription
      && p.image == p.thumbnail
      && p.createdAt == now.millis
      && p.updatedAt == now.iso
  {
  }

  /** The fields of a listed project, as `addProject` input. */
  function AsInput(p: RemoteProject): Fields {
    Fields(
      Some(p.title), Some(p.description), Some(p.image), Some(p.techStack),
      Some(p.githubUrl), Some(p.liveUrl), Some(p.status), Some(p.shortDescription),
      Some(p.detailedDescription), Some(p.thumbnail), Some(p.screenshots),
      Some(p.visibility), Some(p.featured), Some(p.displayOrder), Some(p.demoUrl))
  }

  /** Adding a listed project again and reading it back gives the same
      project under the new id and time, provided its paired fields agree
      as every read of an added document makes them agree. */
  lemma ReAddRoundTrip(p: RemoteProject, id: string, now: Instant, later: Instant)
    requires p.description == p.shortDescription && p.image == p.thumbnail
    requires p.status != "" && p.visibility != ""
    requires now.iso != ""
    ensures ReadDoc(id, Normalize(AsInput(p), now), later)
      == p.(id := id, createdAt := now.millis, updatedAt := now.iso)
  {
  }

  /** After an update, a read shows each text field the patch set to a
      non-empty value, and the document keeps its place in the listing. */
  lemma UpdateThenRead(coll: Collection, id: string, patch: Fields, now: Instant, later: Instant)
    requires id in coll
    requires now.iso != ""
    ensures var coll' := UpdateProject(coll, id, patch, now, true).0;
      var p := ReadDoc(id, coll'[id], later);
      && (patch.status.Some? && patch.status.value != "" ==> p.status == patch.status.value)
      && (patch.title.Some? ==> p.title == patch.title.value)
      && (patch.featured.Some? ==> p.featured == patch.featured.value)
      && p.createdAt == ReadDoc(id, coll[id], later).createdAt
      && p.updatedAt == now.iso
      && (Listed(coll', id) <==> Listed(coll, id))
  {
  }

  /** A deleted document is never listed, and updating it afterwards is
      rejected as missing. */
  lemma DeleteThenGone(coll: Collection, id: string, patch: Fields, now: Instant, ps: seq<RemoteProject>)
    requires IsListing(DeleteProject(coll, id, true).0, now, ps)
    ensures forall i :: 0 <= i < |ps| ==> ps[i].id != id
    ensures UpdateProject(DeleteProject(coll, id, true).0, id, patch, now, true).1 == Failure(NotFound)
  {
  }

  /** A successful add is listed. */
  lemma AddedIsListed(coll: Collection, input: Fields, freshId: string, now: Instant, later: Instant, ps: seq<RemoteProject>)
    requires freshId !in coll
    requires IsListing(AddProject(coll, input, freshId, now, true).0, later, ps)
    ensures exists i :: 0 <= i < |ps| && ps[i] == ReadDoc(freshId, Normalize(input, now), later)
  {
    var coll' := AddProject(coll, input, freshId, now, true).0;
    assert Listed(coll', freshId);
    var i :| 0 <= i < |ps| && ps[i].id == freshId;
  }
}

=== FILE: local_analytics.dfy ===
/** The event counters of `src/utils/analytics.ts`: three functions that
    each read the device-local analytics record, add one to a counter and
    write it back, and a raw reader of the stored project array. They share
    the storage slots of the project store but, unlike it, do not recover
    from an unreadable slot. */
module LocalAnalytics {
  import opened Wrappers
  import opened Seqs
  import opened ProjectTypes
  import opened ProjectStorage

  /** `JSON.parse` threw on the stored text. */
  datatype LocalError = Unparsable

  /** The record assumed when nothing is stored: three zero event counters
      and no project counters. */
  const Zero := Analytics(0, 0, 0, None)

  /** The record the counters start from: the stored one, or `Zero`. */
  function Current(d: Device): (a: Analytics)
    requires !d.analytics.Corrupt?
    ensures d.analytics.Missing? ==> a == Zero
  {
    if d.analytics.Stored? then d.analytics.value else Zero
  }

  /** One counter up by one; every other field as it was. */
  function Bump(a: Analytics, c: Counter): (b: Analytics)
    ensures CounterValue(b, c) == CounterValue(a, c) + 1
    ensures forall o :: o != c ==> CounterValue(b, o) == CounterValue(a, o)
    ensures b.projectTotals == a.projectTotals
  {
    match c
    case Visitors => a.(visitors := a.visitors + 1)
    case FormSubmissions => a.(formSubmissions := a.formSubmissions + 1)
    case ProjectViews => a.(projectViews := a.projectViews + 1)
  }

  /** The shared body of the three trackers: an unreadable record makes the
      call throw; otherwise the counter goes up by one in the stored record
      and nothing else on the device changes. */
  function Track(d: Device, c: Counter): (r: Result<Device, LocalError>)
    ensures r.Failure? <==> d.analytics.Corrupt?
    ensures r.Success? ==>
      && r.value.projects == d.projects
      && r.value.analytics.Stored?
      && CounterValue(r.value.analytics.value, c) == CounterValue(Current(d), c) + 1
      && (forall o :: o != c ==> CounterValue(r.value.analytics.value, o) == CounterValue(Current(d), o))
      && r.value.analytics.value.projectTotals == Current(d).projectTotals
  {
    if d.analytics.Corrupt? then Failure(Unparsable)
    else Success(d.(analytics := Stored(Bump(Current(d), c))))
  }

  function TrackVisitor(d: Device): (r: Result<Device, LocalError>)
    ensures r.Failure? <==> d.analytics.Corrupt?
    ensures r.Success? ==> r.value.analytics.Stored? && r.value.analytics.value.visitors == Current(d).visitors + 1
    ensures r.Success? ==>
      && r.value.projects == d.projects
      && (forall o :: o != Visitors ==> CounterValue(r.value.analytics.value, o) == CounterValue(Current(d), o))
      && r.value.analytics.value.projectTotals == Current(d).projectTotals
  {
    Track(d, Visitors)
  }

  function TrackFormSubmission(d: Device): (r: Result<Device, LocalError>)
    ensures r.Failure? <==> d.analytics.Corrupt?
    ensures r.Success? ==> r.value.analytics.Stored? && r.value.analytics.value.formSubmissions == Current(d).formSubmissions + 1
    ensures r.Success? ==>
      && r.value.projects == d.projects
      && (forall o :: o != FormSubmissions ==> CounterValue(r.value.analytics.value, o) == CounterValue(Current(d), o))
      && r.value.analytics.value.projectTotals == Current(d).projectTotals
  {
    Track(d, FormSubmissions)
  }

  function TrackProjectView(d: Device): (r: Result<Device, LocalError>)
    ensures r.Failure? <==> d.analytics.Corrupt?
    ensures r.Success? ==> r.value.analytics.Stored? && r.value.analytics.value.projectViews == Current(d).projectViews + 1
    ensures r.Success? ==>
      && r.value.projects == d.projects
      && (forall o :: o != ProjectViews ==> CounterValue(r.value.analytics.value, o) == CounterValue(Current(d), o))
      && r.value.analytics.value.projectTotals == Current(d).projectTotals
  {
    Track(d, ProjectViews)
  }

  /** The stored project array as is, soft-deleted records included; an
      empty list when nothing is stored; a throw when it cannot be parsed. */
  function GetProjects(d: Device): (r: Result<seq<Project>, LocalError>)
    ensures r.Failure? <==> d.projects.Corrupt?
    ensures r.Success? ==> r.value == GetAllProjects(d)
  {
    match d.projects
    case Corrupt => Failure(Unparsable)
    case Missing => Success([])
    case Stored(ps) => Success(ps)
  }

  /** Two events counted in either order leave the same device. */
  lemma TrackCommutes(d: Device, c1: Counter, c2: Counter)
    requires !d.analytics.Corrupt?
    ensures Track(Track(d, c1).value, c2) == Track(Track(d, c2).value, c1)
  {
  }

  /** Tracking events never disturbs the project counters, so a device whose
      counters matched its live projects still does. */
  lemma TrackKeepsCountersInSync(d: Device, c: Counter, fallback: seq<Project>)
    requires CountersInSync(d, fallback)
    ensures Track(d, c).Success? && CountersInSync(Track(d, c).value, fallback)
  {
  }

  /** On a stored record, counting a view here and through the project
      store agree; on an empty slot they do not: this module writes a
      record without project counters, the store writes one with them. */
  lemma ViewCountersAgree(d: Device, fallback: seq<Project>)
    requires !d.analytics.Corrupt?
    ensures d.analytics.Stored? ==> TrackProjectView(d) == Success(IncrementProjectViews(d, fallback))
    ensures d.analytics.Missing? ==>
      && TrackProjectView(d).value.analytics.value.projectTotals.None?
      && IncrementProjectViews(d, fallback).analytics.value.projectTotals.Some?
  {
  }

  /** Unlike the project store's live view, the raw reader still lists a
      record after it has been soft-deleted. */
  lemma DeletedStillListed(d: Device, id: string, env: Env)
    requires FindIndex(GetAllProjects(d), id).Some?
    ensures var d' := DeleteProject(d, id, env);
      GetProjects(d').Success? &&
      |GetProjects(d').value| == |GetAllProjects(d)| &&
      GetProjects(d').value[FindIndex(GetAllProjects(d), id).value].id == id
  {
  }
}

=== FILE: project_storage.dfy ===
/** The device-local project store (`src/utils/projectStorage.ts`).

    The browser's storage is an explicit value: one slot holding the whole
    project array, soft-deleted records included, and one holding the
    analytics record. Every mutation reads the array, rewrites it, and then
    recomputes the four project counters of the analytics record from the
    live list by a merge that keeps the event counters. */
module ProjectStorage {
  import opened Wrappers
  import opened Seqs
  import opened ProjectTypes

  /** What a storage key yields: nothing (absent or the empty string),
      text that does not parse as the expected JSON, or a parsed value. */
  datatype Slot<T> = Missing | Corrupt | Stored(value: T)

  /** The two storage keys the data layer uses (`portfolioProjects` and
      `portfolioAnalytics`). */
  datatype Device = Device(projects: Slot<seq<Project>>, analytics: Slot<Analytics>)

  /** What a call depends on besides storage: the list shown when no live
      record is stored (the module's `DEFAULT_PROJECTS`, stamped with the
      time the module was loaded) and the time of the call. */
  datatype Env = Env(fallback: seq<Project>, now: Timestamp)

  /** The texts of the two sample projects. */
  const PortfolioDetail := "This portfolio website showcases my skills and projects with a modern design, smooth animations, and responsive layout. Built with React, TypeScript, Tailwind CSS, and Framer Motion."
  const FrameworkDetail := "A robust test automation framework designed for web application testing with support for multiple browsers, parallel execution, and detailed reporting."
  const PortfolioSummary := "A modern, responsive portfolio website built with React and TypeScript"
  const FrameworkSummary := "Comprehensive test automation framework for web applications"
  const PortfolioThumbnail := "https://images.unsplash.com/photo-1460925895917-afdab827c52f?w=400&h=300&fit=crop"
  const FrameworkThumbnail := "https://images.unsplash.com/photo-1555066931-4365d14bab8c?w=400&h=300&fit=crop"

  /** The two sample projects shown while no live record is stored. */
  function DefaultProjects(loadedAt: Timestamp): (r: seq<Project>)
    ensures |r| == 2 && r[0].id != r[1].id
    ensures forall i :: 0 <= i < |r| ==> r[i].createdAt == loadedAt && r[i].updatedAt == loadedAt
  {
    [ Project(
        "default-1",
        "Portfolio Website",
        PortfolioSummary,
        PortfolioDetail,
        ["React", "TypeScript", "Tailwind CSS", "Framer Motion", "Vite"],
        PortfolioThumbnail,
        [], Active, Show, true, 0,
        Some(""), Some("https://github.com/udhay13"), Some(""),
        loadedAt, loadedAt, None),
      Project(
        "default-2",
        "QA Automation Framework",
        FrameworkSummary,
        FrameworkDetail,
        ["Selenium", "Java", "TestNG", "Maven", "Jenkins"],
        FrameworkThumbnail,
        [], Active, Show, false, 1,
        Some(""), Some("https://github.com/udhay13"), Some(""),
        loadedAt, loadedAt, None) ]
  }

  /** `!p.deletedAt`: a record is live unless it carries a non-empty
      deletion time. */
  predicate IsLive(p: Project) {
    p.deletedAt.None? || p.deletedAt.value == ""
  }

  predicate IsActiveProject(p: Project) { p.status == Active }
  predicate IsInactiveProject(p: Project) { p.status != Active }
  predicate IsFeaturedProject(p: Project) { p.featured }

  /** Every record of the list is live. */
  predicate AllLive(ps: seq<Project>) {
    forall i :: 0 <= i < |ps| ==> IsLive(ps[i])
  }

  /** Some stored record is live. */
  predicate HasLive(d: Device) {
    d.projects.Stored? && exists i :: 0 <= i < |d.projects.value| && IsLive(d.projects.value[i])
  }

  /** Every record, soft-deleted ones included; nothing when the slot is
      empty or unreadable. */
  function GetAllProjects(d: Device): (r: seq<Project>)
    ensures d.projects.Stored? ==> r == d.projects.value
    ensures !d.projects.Stored? ==> r == []
  {
    if d.projects.Stored? then d.projects.value else []
  }

  /** The live records in stored order, or the fallback list when there are
      none (nothing stored, unreadable, or every record soft-deleted). */
  function GetProjects(d: Device, fallback: seq<Project>): (r: seq<Project>)
    ensures |fallback| > 0 ==> |r| > 0
    ensures HasLive(d) ==>
      && IsSubseq(r, d.projects.value)
      && |r| == Count(d.projects.value, IsLive)
      && forall p :: p in r <==> p in d.projects.value && IsLive(p)
    ensures !HasLive(d) ==> r == fallback
  {
    match d.projects
    case Missing => fallback
    case Corrupt => fallback
    case Stored(ps) =>
      FilterIsSubseq(ps, IsLive);
      FilterLength(ps, IsLive);
      var live := Filter(ps, IsLive);
      if |live| > 0 then
        assert live[0] in ps;
        live
      else
        assert !HasLive(d) by {
          forall i | 0 <= i < |ps| ensures !IsLive(ps[i]) {
            assert ps[i] in ps;
          }
        }
        fallback
  }

  /** `findIndex`: the first position holding `id`. */
  function FindIndex(ps: seq<Project>, id: string): (r: Option<nat>)
    ensures r.Some? ==> r.value < |ps| && ps[r.value].id == id
    ensures r.Some? ==> forall j :: 0 <= j < r.value ==> ps[j].id != id
    ensures r.None? ==> forall j :: 0 <= j < |ps| ==> ps[j].id != id
  {
    if ps == [] then None
    else if ps[0].id == id then Some(0)
    else match FindIndex(ps[1..], id)
      case Some(i) => Some(i + 1)
      case None => None
  }

  /** The first record with this id, soft-deleted or not. */
  function GetProject(d: Device, id: string): (r: Option<Project>)
    ensures r.Some? ==> r.value in GetAllProjects(d) && r.value.id == id
    ensures r.Some? ==> exists i :: (0 <= i < |GetAllProjects(d)| && GetAllProjects(d)[i] == r.value
      && forall j :: 0 <= j < i ==> GetAllProjects(d)[j].id != id)
    ensures r.None? <==> forall p :: p in GetAllProjects(d) ==> p.id != id
  {
    var ps := GetAllProjects(d);
    match FindIndex(ps, id)
    case Some(i) => Some(ps[i])
    case None => None
  }

  /** The live view is the full list with soft-deleted records filtered
      out, unless that leaves nothing. */
  lemma LiveViewOfAll(d: Device, fallback: seq<Project>)
    ensures var live := Filter(GetAllProjects(d), IsLive);
      GetProjects(d, fallback) == if live != [] then live else fallback
  {
  }

  /** The project counters of a project list, each by its own filter. */
  function Totals(ps: seq<Project>): ProjectTotals {
    ProjectTotals(
      |ps|,
      |Filter(ps, IsActiveProject)|,
      |Filter(ps, IsInactiveProject)|,
      |Filter(ps, IsFeaturedProject)|)
  }

  /** Active and inactive records partition the list. */
  lemma TotalsBalance(ps: seq<Project>)
    ensures Totals(ps).active + Totals(ps).inactive == Totals(ps).total
  {
    FilterLength(ps, IsActiveProject);
    FilterLength(ps, IsInactiveProject);
    CountComplement(ps, IsActiveProject, IsInactiveProject);
  }

  /** The analytics record: the stored one, else zero event counters with
      project counters computed from the live list. */
  function GetAnalytics(d: Device, fallback: seq<Project>): (a: Analytics)
    ensures d.analytics.Stored? ==> a == d.analytics.value
    ensures !d.analytics.Stored? ==>
      && a.visitors == 0 && a.formSubmissions == 0 && a.projectViews == 0
      && a.projectTotals == Some(Totals(GetProjects(d, fallback)))
      && a.projectTotals.value.total == |GetProjects(d, fallback)|
      && a.projectTotals.value.active + a.projectTotals.value.inactive == a.projectTotals.value.total
  {
    TotalsBalance(GetProjects(d, fallback));
    if d.analytics.Stored? then d.analytics.value
    else Analytics(0, 0, 0, Some(Totals(GetProjects(d, fallback))))
  }

  /** A `Partial<Analytics>`: the fields it carries override the record. The
      four project counters are always written together. */
  datatype AnalyticsPatch = AnalyticsPatch(
    visitors: Option<int>,
    formSubmissions: Option<int>,
    projectViews: Option<int>,
    projectTotals: Option<ProjectTotals>)

  /** `{ ...current, ...updates }`. */
  function Merge(a: Analytics, u: AnalyticsPatch): Analytics {
    Analytics(
      u.visitors.GetOr(a.visitors),
      u.formSubmissions.GetOr(a.formSubmissions),
      u.projectViews.GetOr(a.projectViews),
      if u.projectTotals.Some? then u.projectTotals else a.projectTotals)
  }

  /** Reads the analytics record, merges the patch and writes it back. */
  function UpdateAnalytics(d: Device, u: AnalyticsPatch, fallback: seq<Project>): (d': Device)
    ensures d'.projects == d.projects && d'.analytics.Stored?
    ensures d'.analytics.value.visitors == u.visitors.GetOr(GetAnalytics(d, fallback).visitors)
    ensures d'.analytics.value.formSubmissions == u.formSubmissions.GetOr(GetAnalytics(d, fallback).formSubmissions)
    ensures d'.analytics.value.projectViews == u.projectViews.GetOr(GetAnalytics(d, fallback).projectViews)
    ensures d'.analytics.value.projectTotals ==
      (if u.projectTotals.Some? then u.projectTotals else GetAnalytics(d, fallback).projectTotals)
  {
    d.(analytics := Stored(Merge(GetAnalytics(d, fallback), u)))
  }

  /** Reading after an update yields the merge; an empty patch changes
      nothing that can be read; and the same patch applied twice is applied
      once. */
  lemma UpdateAnalyticsLaws(d: Device, u: AnalyticsPatch, fallback: seq<Project>)
    ensures GetAnalytics(UpdateAnalytics(d, u, fallback), fallback) == Merge(GetAnalytics(d, fallback), u)
    ensures GetAnalytics(UpdateAnalytics(d, AnalyticsPatch(None, None, None, None), fallback), fallback)
      == GetAnalytics(d, fallback)
    ensures UpdateAnalytics(UpdateAnalytics(d, u, fallback), u, fallback) == UpdateAnalytics(d, u, fallback)
  {
  }

  /** The stored project counters describe the current live list. */
  predicate CountersInSync(d: Device, fallback: seq<Project>) {
    d.analytics.Stored? && d.analytics.value.projectTotals == Some(Totals(GetProjects(d, fallback)))
  }

  /** Two analytics records agree on the three event counters. */
  predicate SameEventCounters(a: Analytics, b: Analytics) {
    a.visitors == b.visitors && a.formSubmissions == b.formSubmissions && a.projectViews == b.projectViews
  }

  /** The analytics refresh every mutation ends with. */
  function Recount(d: Device, fallback: seq<Project>): (d': Device)
    ensures d'.projects == d.projects
    ensures CountersInSync(d', fallback)
    ensures SameEventCounters(GetAnalytics(d', fallback), GetAnalytics(d, fallback))
  {
    UpdateAnalytics(d, AnalyticsPatch(None, None, None, Some(Totals(GetProjects(d, fallback)))), fallback)
  }

  /** Upsert by id: a record with the same id is replaced in place and
      stamped `updatedAt := now`; otherwise the record is appended stamped
      `createdAt := updatedAt := now`. */
  function SaveProject(d: Device, p: Project, env: Env): (d': Device)
    ensures d'.projects.Stored?
    ensures FindIndex(GetAllProjects(d), p.id).Some? ==>
      var i, before, after := FindIndex(GetAllProjects(d), p.id).value, GetAllProjects(d), d'.projects.value;
      && |after| == |before|
      && after[i] == p.(updatedAt := env.now)
      && forall j :: 0 <= j < |before| && j != i ==> after[j] == before[j]
    ensures FindIndex(GetAllProjects(d), p.id).None? ==>
      var before, after := GetAllProjects(d), d'.projects.value;
      && |after| == |before| + 1
      && after[..|before|] == before
      && after[|before|] == p.(createdAt := env.now, updatedAt := env.now)
    ensures CountersInSync(d', env.fallback)
    ensures SameEventCounters(GetAnalytics(d', env.fallback), GetAnalytics(d, env.fallback))
  {
    var ps := GetAllProjects(d);
    var ps' := match FindIndex(ps, p.id)
      case Some(i) => ps[i := p.(updatedAt := env.now)]
      case None => ps + [p.(createdAt := env.now, updatedAt := env.now)];
    Recount(d.(projects := Stored(ps')), env.fallback)
  }

  /** Soft delete: the first record with the id gets `deletedAt := now`; an
      unknown id changes nothing, analytics included. */
  function DeleteProject(d: Device, id: string, env: Env): (d': Device)
    ensures FindIndex(GetAllProjects(d), id).None? ==> d' == d
    ensures FindIndex(GetAllProjects(d), id).Some? ==>
      var i, before, after := FindIndex(GetAllProjects(d), id).value, GetAllProjects(d), GetAllProjects(d');
      && |after| == |before|
      && after[i] == before[i].(deletedAt := Some(env.now))
      && (forall j :: 0 <= j < |before| && j != i ==> after[j] == before[j])
      && CountersInSync(d', env.fallback)
      && SameEventCounters(GetAnalytics(d', env.fallback), GetAnalytics(d, env.fallback))
  {
    var ps := GetAllProjects(d);
    match FindIndex(ps, id)
    case None => d
    case Some(i) =>
      Recount(d.(projects := Stored(ps[i := ps[i].(deletedAt := Some(env.now))])), env.fallback)
  }

  /** Restore: the first record with the id loses its `deletedAt`; an
      unknown id changes nothing. */
  function RestoreProject(d: Device, id: string, env: Env): (d': Device)
    ensures FindIndex(GetAllProjects(d), id).None? ==> d' == d
    ensures FindIndex(GetAllProjects(d), id).Some? ==>
      var i, before, after := FindIndex(GetAllProjects(d), id).value, GetAllProjects(d), GetAllProjects(d');
      && |after| == |before|
      && after[i] == before[i].(deletedAt := None)
      && IsLive(after[i])
      && (forall j :: 0 <= j < |before| && j != i ==> after[j] == before[j])
      && CountersInSync(d', env.fallback)
      && SameEventCounters(GetAnalytics(d', env.fallback), GetAnalytics(d, env.fallback))
  {
    var ps := GetAllProjects(d);
    match FindIndex(ps, id)
    case None => d
    case Some(i) =>
      Recount(d.(projects := Stored(ps[i := ps[i].(deletedAt := None)])), env.fallback)
  }

  /** Adds one to the stored project-view counter, keeping everything else. */
  function IncrementProjectViews(d: Device, fallback: seq<Project>): (d': Device)
    ensures d'.projects == d.projects
    ensures d'.analytics.Stored?
    ensures GetAnalytics(d', fallback).projectViews == GetAnalytics(d, fallback).projectViews + 1
    ensures GetAnalytics(d', fallback).visitors == GetAnalytics(d, fallback).visitors
    ensures GetAnalytics(d', fallback).formSubmissions == GetAnalytics(d, fallback).formSubmissions
    ensures GetAnalytics(d', fallback).projectTotals == GetAnalytics(d, fallback).projectTotals
  {
    var a := GetAnalytics(d, fallback);
    UpdateAnalytics(d, AnalyticsPatch(None, None, Some(a.projectViews + 1), None), fallback)
  }

  /** The defaults are two live, active records, one of them featured, so
      the live view is never empty. */
  lemma DefaultsShape(loadedAt: Timestamp)
    ensures |DefaultProjects(loadedAt)| == 2
    ensures AllLive(DefaultProjects(loadedAt))
    ensures Totals(DefaultProjects(loadedAt)) == ProjectTotals(2, 2, 0, 1)
  {
    var ds := DefaultProjects(loadedAt);
    assert Filter(ds, IsActiveProject) == ds;
    assert Filter(ds, IsInactiveProject) == [];
    assert Filter(ds, IsFeaturedProject) == [ds[0]];
  }

  /** With the module's defaults as fallback, the live view is never empty. */
  lemma GetProjectsNeverEmpty(d: Device, loadedAt: Timestamp)
    ensures |GetProjects(d, DefaultProjects(loadedAt))| > 0
  {
    DefaultsShape(loadedAt);
  }

  /** No two records share an id. */
  predicate UniqueIds(ps: seq<Project>) {
    forall i, j :: 0 <= i < j < |ps| ==> ps[i].id != ps[j].id
  }

  /** After a mutation the stored counters match the live list: the total is
      its length and active plus inactive is the total. */
  lemma InSyncCountersBalance(d: Device, fallback: seq<Project>)
    requires CountersInSync(d, fallback)
    ensures var t := d.analytics.value.projectTotals.value;
      t.total == |GetProjects(d, fallback)| && t.active + t.inactive == t.total
  {
    TotalsBalance(GetProjects(d, fallback));
  }

  /** Saving never introduces a second record with the same id. */
  lemma SaveKeepsIdsUnique(d: Device, p: Project, env: Env)
    requires UniqueIds(GetAllProjects(d))
    ensures UniqueIds(GetAllProjects(SaveProject(d, p, env)))
  {
    var before, after := GetAllProjects(d), GetAllProjects(SaveProject(d, p, env));
    if FindIndex(before, p.id).None? {
      forall i, j | 0 <= i < j < |after| ensures after[i].id != after[j].id {
        if j < |before| {
          assert after[i] == before[i] && after[j] == before[j];
        } else {
          assert after[i] == before[i];
        }
      }
    }
  }

  /** The first position holding an id is what `FindIndex` returns. */
  lemma {:induction false} FindFirst(ps: seq<Project>, id: string, i: nat)
    requires i < |ps| && ps[i].id == id
    requires forall j :: 0 <= j < i ==> ps[j].id != id
    ensures FindIndex(ps, id) == Some(i)
  {
    if i > 0 {
      FindFirst(ps[1..], id, i - 1);
    }
  }

  /** Reading a record back after saving it yields the saved, stamped record. */
  lemma SaveThenGet(d: Device, p: Project, env: Env)
    ensures FindIndex(GetAllProjects(d), p.id).Some? ==>
      GetProject(SaveProject(d, p, env), p.id) == Some(p.(updatedAt := env.now))
    ensures FindIndex(GetAllProjects(d), p.id).None? ==>
      GetProject(SaveProject(d, p, env), p.id) == Some(p.(createdAt := env.now, updatedAt := env.now))
  {
    var before, after := GetAllProjects(d), GetAllProjects(SaveProject(d, p, env));
    match FindIndex(before, p.id)
    case Some(i) =>
      FindFirst(after, p.id, i);
    case None =>
      FindFirst(after, p.id, |before|);
  }

  /** Soft delete keeps the record in the full list, never shrinks it, and
      hides the record from the live view. */
  lemma DeletedRecordHidden(d: Device, id: string, env: Env)
    requires FindIndex(GetAllProjects(d), id).Some?
    requires env.now != ""
    requires AllLive(env.fallback)
    ensures var i, d' := FindIndex(GetAllProjects(d), id).value, DeleteProject(d, id, env);
      && |GetAllProjects(d')| == |GetAllProjects(d)|
      && GetAllProjects(d')[i] in GetAllProjects(d')
      && GetAllProjects(d')[i].id == id
      && GetAllProjects(d')[i] !in GetProjects(d', env.fallback)
  {
    var i, d' := FindIndex(GetAllProjects(d), id).value, DeleteProject(d, id, env);
    assert !IsLive(GetAllProjects(d')[i]);
  }

  /** Replacing a record by one with the same id leaves `FindIndex` alone. */
  lemma {:induction false} FindIndexSameIds(ps: seq<Project>, i: nat, q: Project, id: string)
    requires i < |ps| && q.id == ps[i].id
    ensures FindIndex(ps[i := q], id) == FindIndex(ps, id)
  {
    if ps != [] && ps[0].id != id && i > 0 {
      assert ps[i := q][1..] == ps[1..][i - 1 := q];
      FindIndexSameIds(ps[1..], i - 1, q, id);
    }
  }

  /** Deleting then restoring a live record gives back the stored array
      exactly (`updatedAt` untouched); when the counters were already in
      sync the whole device is as before. */
  lemma DeleteRestoreRoundTrip(d: Device, id: string, e1: Env, e2: Env)
    requires FindIndex(GetAllProjects(d), id).Some?
    requires GetAllProjects(d)[FindIndex(GetAllProjects(d), id).value].deletedAt.None?
    ensures RestoreProject(DeleteProject(d, id, e1), id, e2).projects == d.projects
    ensures CountersInSync(d, e2.fallback) ==> RestoreProject(DeleteProject(d, id, e1), id, e2) == d
  {
    var ps := GetAllProjects(d);
    var i := FindIndex(ps, id).value;
    var d1 := DeleteProject(d, id, e1);
    var ps1 := ps[i := ps[i].(deletedAt := Some(e1.now))];
    assert GetAllProjects(d1) == ps1;
    FindIndexSameIds(ps, i, ps[i].(deletedAt := Some(e1.now)), id);
    assert ps1[i := ps1[i].(deletedAt := None)] == ps;
  }
}

=== FILE: project_types.dfy ===
/** The records of the portfolio's project data layer as the admin forms and
    the device-local store see them (`src/types/project.ts`), together with
    the JavaScript truthiness rules the stores use for defaulting. */
module ProjectTypes {
  import opened Wrappers

  /** An instant as the stores write it: the ISO-8601 text of
      `Date.prototype.toISOString`. Only equality and emptiness matter. */
  type Timestamp = string

  /** Publication state of a local project. */
  datatype Status = Active | Draft | Archived

  /** The string each status is written as. */
  function StatusName(s: Status): string {
    match s
    case Active => "active"
    case Draft => "draft"
    case Archived => "archived"
  }

  /** The secondary display flag. */
  datatype Visibility = Show | Hide

  function VisibilityName(v: Visibility): string {
    match v
    case Show => "show"
    case Hide => "hide"
  }

  /** A project record of the device-local store. `deletedAt` marks a soft
      deletion; the three links are optional. */
  datatype Project = Project(
    id: string,
    title: string,
    shortDescription: string,
    detailedDescription: string,
    techStack: seq<string>,
    thumbnail: string,
    screenshots: seq<string>,
    status: Status,
    visibility: Visibility,
    featured: bool,
    displayOrder: int,
    liveUrl: Option<string>,
    githubUrl: Option<string>,
    demoUrl: Option<string>,
    createdAt: Timestamp,
    updatedAt: Timestamp,
    deletedAt: Option<Timestamp>)

  /** The values the "add project" form holds. */
  datatype ProjectFormData = ProjectFormData(
    title: string,
    shortDescription: string,
    detailedDescription: string,
    techStack: seq<string>,
    thumbnail: string,
    screenshots: seq<string>,
    status: Status,
    visibility: Visibility,
    featured: bool,
    displayOrder: int,
    liveUrl: Option<string>,
    githubUrl: Option<string>,
    demoUrl: Option<string>)

  /** The four project-derived counters of the analytics record. */
  datatype ProjectTotals = ProjectTotals(total: int, active: int, inactive: int, featured: int)

  /** The stored analytics record. The interface declares all seven counters;
      a record first written by the event counters of `src/utils/analytics.ts`
      holds only the three event counters, so the project counters are
      optional here. */
  datatype Analytics = Analytics(
    visitors: int,
    formSubmissions: int,
    projectViews: int,
    projectTotals: Option<ProjectTotals>)

  /** The three event counters. */
  datatype Counter = Visitors | FormSubmissions | ProjectViews

  function CounterValue(a: Analytics, c: Counter): int {
    match c
    case Visitors => a.visitors
    case FormSubmissions => a.formSubmissions
    case ProjectViews => a.projectViews
  }

  /** `s || fallback` for a string `s`: the empty string is falsy. */
  function OrElse(s: string, fallback: string): string {
    if s != "" then s else fallback
  }

  /** `o || fallback` for an optional string `o`. */
  function OptOrElse(o: Option<string>, fallback: string): string {
    if o.Some? && o.value != "" then o.value else fallback
  }

  /** `z.string().url().optional().or(z.literal(''))`: an absent link, the
      empty string, or a string the URL check accepts. The URL check is a
      library predicate and is passed in. */
  predicate OptionalUrl(link: Option<string>, isUrl: string -> bool) {
    link.None? || link.value == "" || isUrl(link.value)
  }
}

=== FILE: projects_management.dfy ===
/** The admin project table of `src/components/ProjectsManagement.tsx`: the
    dashboard counters computed on load, the search and status filters,
    and the row actions that write to the remote collection (archive or
    activate, restore, delete). Lower-casing is a library function and is
    passed in. */
module ProjectsManagement {
  import opened Wrappers
  import opened Seqs
  import opened ProjectTypes
  import opened FirebaseProjects
  import opened FirebaseAnalytics

  /** The status buttons above the table. */
  datatype StatusFilter = AllStatuses | OnlyStatus(status: string)

  /** The search box: the lower-cased query occurs in the lower-cased title,
      short description, or one of the technologies. */
  predicate MatchesSearch(p: RemoteProject, query: string, lower: string -> string) {
    var q := lower(query);
    || Contains(lower(p.title), q)
    || Contains(lower(p.shortDescription), q)
    || exists i :: 0 <= i < |p.techStack| && Contains(lower(p.techStack[i]), q)
  }

  predicate MatchesStatus(p: RemoteProject, filter: StatusFilter) {
    filter.AllStatuses? || p.status == filter.status
  }

  /** A project both filters accept. */
  function Selected(query: string, filter: StatusFilter, lower: string -> string): RemoteProject -> bool {
    p => MatchesSearch(p, query, lower) && MatchesStatus(p, filter)
  }

  /** The rows shown: the loaded projects both filters accept, in listing
      order. */
  function FilteredProjects(ps: seq<RemoteProject>, query: string, filter: StatusFilter, lower: string -> string)
    : (r: seq<RemoteProject>)
    ensures IsSubseq(r, ps)
    ensures forall p :: p in r <==> p in ps && MatchesSearch(p, query, lower) && MatchesStatus(p, filter)
    ensures |r| == Count(ps, Selected(query, filter, lower))
  {
    FilterIsSubseq(ps, Selected(query, filter, lower));
    FilterLength(ps, Selected(query, filter, lower));
    Filter(ps, Selected(query, filter, lower))
  }

  /** An empty search with every status selected shows every project. */
  lemma EmptySearchShowsAll(ps: seq<RemoteProject>, lower: string -> string)
    requires lower("") == ""
    ensures FilteredProjects(ps, "", AllStatuses, lower) == ps
  {
    var keep := Selected("", AllStatuses, lower);
    forall i | 0 <= i < |ps| ensures keep(ps[i]) {
      assert "" <= lower(ps[i].title);
    }
    FilterKeepsAll(ps, keep);
  }

  predicate IsActiveRemote(p: RemoteProject) { p.status == "active" }
  predicate IsInactiveRemote(p: RemoteProject) { p.status != "active" }
  predicate IsFeaturedRemote(p: RemoteProject) { p.featured }

  /** The dashboard record: the remote event counters and the project
      counters of the loaded list. */
  datatype AdminAnalytics = AdminAnalytics(events: AnalyticsData, totals: ProjectTotals)

  /** The counters `loadProjects` sets: the total is the list length, the
      active and inactive counts split it by status, and the featured count
      is fixed at zero. */
  function AdminCounters(events: AnalyticsData, all: seq<RemoteProject>): (a: AdminAnalytics)
    ensures a.events == events
    ensures a.totals.total == |all|
    ensures a.totals.active == Count(all, IsActiveRemote)
    ensures a.totals.active + a.totals.inactive == a.totals.total
    ensures a.totals.featured == 0
  {
    FilterLength(all, IsActiveRemote);
    FilterLength(all, IsInactiveRemote);
    CountComplement(all, IsActiveRemote, IsInactiveRemote);
    AdminAnalytics(events, ProjectTotals(|all|, |Filter(all, IsActiveRemote)|, |Filter(all, IsInactiveRemote)|, 0))
  }

  /** A list holding a featured project has a positive featured count. */
  lemma {:induction false} FeaturedCounted(all: seq<RemoteProject>, i: nat)
    requires i < |all| && all[i].featured
    ensures Count(all, IsFeaturedRemote) > 0
  {
    if i > 0 {
      FeaturedCounted(all[1..], i - 1);
    }
  }

  /** The featured counter ignores the stored `featured` flags: it reads
      zero even when a listed project is featured. */
  lemma FeaturedCounterStaysZero(events: AnalyticsData, all: seq<RemoteProject>, i: nat)
    requires i < |all| && all[i].featured
    ensures AdminCounters(events, all).totals.featured == 0 < Count(all, IsFeaturedRemote)
  {
    FeaturedCounted(all, i);
  }

  /** `loadProjects`: lists the projects, reads the event counters, and
      derives the dashboard record. */
  method LoadProjects(coll: Collection, log: Log, now: Instant, projectsUp: bool, analyticsUp: bool)
    returns (all: seq<RemoteProject>, a: AdminAnalytics)
    ensures projectsUp ==> IsListing(coll, now, all)
    ensures !projectsUp ==> all == []
    ensures analyticsUp ==> a.events == Counts(log)
    ensures !analyticsUp ==> a.events == AnalyticsData(0, 0, 0)
    ensures a.totals.total == |all| && a.totals.active + a.totals.inactive == |all| && a.totals.featured == 0
    ensures a.totals.active == Count(all, IsActiveRemote)
  {
    all := ListProjects(coll, now, projectsUp);
    var events := GetAnalytics(log, analyticsUp);
    a := AdminCounters(events, all);
  }

  /** The status the star action writes: an active project is archived,
      any other is activated. */
  function ToggledStatus(status: string): string {
    if status == "active" then "archived" else "active"
  }

  /** Toggling twice is the identity exactly on active and archived
      projects; a draft, for instance, ends up archived. */
  lemma ToggleTwice(status: string)
    ensures ToggledStatus(ToggledStatus(status)) == status <==> status == "active" || status == "archived"
  {
  }

  /** `handleToggleFeatured`: despite its name and menu label, writes only
      the toggled status; the `featured` flag and every other field stay. */
  function ToggleFeatured(coll: Collection, p: RemoteProject, now: Instant, available: bool)
    : (out: (Collection, Result<(), RemoteError>))
    ensures out.1.Failure? ==> out.0 == coll
    ensures out.1.Success? <==> available && p.id in coll
    ensures out.1.Success? ==>
      && p.id in coll && p.id in out.0
      && out.0.Keys == coll.Keys
      && (forall other :: other in coll && other != p.id ==> out.0[other] == coll[other])
      && out.0[p.id].fields == coll[p.id].fields.(status := Some(ToggledStatus(p.status)))
      && out.0[p.id].fields.featured == coll[p.id].fields.featured
  {
    UpdateProject(coll, p.id, NoFields.(status := Some(ToggledStatus(p.status))), now, available)
  }

  /** `handleRestore`: sets the status to active and nothing else. */
  function Restore(coll: Collection, p: RemoteProject, now: Instant, available: bool)
    : (out: (Collection, Result<(), RemoteError>))
    ensures out.1.Failure? ==> out.0 == coll
    ensures out.1.Success? <==> available && p.id in coll
    ensures out.1.Success? ==>
      && p.id in coll && p.id in out.0
      && out.0.Keys == coll.Keys
      && (forall other :: other in coll && other != p.id ==> out.0[other] == coll[other])
      && out.0[p.id].fields == coll[p.id].fields.(status := Some("active"))
  {
    UpdateProject(coll, p.id, NoFields.(status := Some("active")), now, available)
  }

  /** `confirmDelete`: removes the selected project's document; with no
      selection nothing is called. */
  function ConfirmDelete(coll: Collection, selected: Option<RemoteProject>, available: bool)
    : (out: (Collection, Result<(), RemoteError>))
    ensures selected.None? ==> out == (coll, Success(()))
    ensures selected.Some? && available ==> out.1.Success? && selected.value.id !in out.0
    ensures selected.Some? && available ==> out.0.Keys == coll.Keys - {selected.value.id}
    ensures selected.Some? && available ==> forall id :: id in coll && id != selected.value.id ==> id in out.0 && out.0[id] == coll[id]
    ensures selected.Some? && !available ==> out == (coll, Failure(Unavailable))
  {
    if selected.None? then (coll, Success(()))
    else DeleteProject(coll, selected.value.id, available)
  }
}

=== FILE: projects_section.dfy ===
/** The public project cards of `src/components/ProjectsSection.tsx`: the
    remote listing narrowed to active projects, the card image (carousel or
    single picture), the tag row, and the two outbound links, each of which
    records a project view before following the link. */
module ProjectsSection {
  import opened Wrappers
  import opened Seqs
  import opened ProjectTypes
  import opened FirebaseProjects
  import opened FirebaseAnalytics
  import opened Badges
  import opened AddProjectDialog

  predicate IsPublic(p: RemoteProject) { p.status == "active" }

  /** The cards shown: the listed projects whose status is active, in
      listing order. Visibility, featured flag and display order play no
      part. */
  function PublicProjects(listing: seq<RemoteProject>): (r: seq<RemoteProject>)
    ensures IsSubseq(r, listing)
    ensures forall p :: p in r <==> p in listing && p.status == "active"
    ensures |r| == Count(listing, IsPublic)
  {
    FilterIsSubseq(listing, IsPublic);
    FilterLength(listing, IsPublic);
    Filter(listing, IsPublic)
  }

  /** Hiding a project or changing its order does not change how many
      cards are shown: only the status is consulted. */
  lemma OnlyStatusDecides(listing: seq<RemoteProject>, edited: seq<RemoteProject>)
    requires |edited| == |listing|
    requires forall i :: 0 <= i < |listing| ==> edited[i].status == listing[i].status
    ensures |PublicProjects(edited)| == |PublicProjects(listing)|
  {
    FilterLength(listing, IsPublic);
    FilterLength(edited, IsPublic);
    CountPointwise(listing, edited, IsPublic);
  }

  /** A published project is shown and a draft is not, whatever the other
      form values. */
  lemma PublishedShownDraftHidden(f: ProjectFormData, id: string, now: Instant, later: Instant)
    ensures var p := ReadDoc(id, Normalize(FormFields(f, "active"), now), later);
      PublicProjects([p]) == [p]
    ensures var p := ReadDoc(id, Normalize(FormFields(f, "draft"), now), later);
      PublicProjects([p]) == []
  {
  }

  const Placeholder := "/placeholder-project.jpg"

  /** The card image: a carousel over the thumbnail and the screenshots,
      empty entries dropped, when there are screenshots; otherwise the
      thumbnail, or the placeholder when there is none. */
  datatype Media = Carousel(images: seq<string>) | Single(src: string)

  predicate NonEmpty(s: string) { s != "" }

  function CardMedia(p: RemoteProject): (m: Media)
    ensures m.Carousel? <==> |p.screenshots| > 0
    ensures m.Carousel? ==> forall s :: s in m.images <==> s != "" && (s == p.thumbnail || s in p.screenshots)
    ensures m.Carousel? ==> IsSubseq(m.images, [p.thumbnail] + p.screenshots)
    ensures m.Carousel? ==> |m.images| == Count([p.thumbnail] + p.screenshots, NonEmpty)
    ensures m.Single? ==> m.src != ""
    ensures m.Single? ==> m.src == OrElse(p.thumbnail, Placeholder)
  {
    if |p.screenshots| > 0 then
      FilterIsSubseq([p.thumbnail] + p.screenshots, NonEmpty);
      FilterLength([p.thumbnail] + p.screenshots, NonEmpty);
      Carousel(Filter([p.thumbnail] + p.screenshots, NonEmpty))
    else Single(OrElse(p.thumbnail, Placeholder))
  }

  /** A project whose screenshots and thumbnail are all empty gets an empty
      carousel, which draws nothing: the placeholder is used only when
      there are no screenshots at all. */
  lemma BlankScreenshotsShowNothing(p: RemoteProject)
    requires |p.screenshots| > 0 && p.thumbnail == ""
    requires forall i :: 0 <= i < |p.screenshots| ==> p.screenshots[i] == ""
    ensures CardMedia(p) == Carousel([])
  {
    var all := [p.thumbnail] + p.screenshots;
    forall i | 0 <= i < |all| ensures !NonEmpty(all[i]) {
      if i > 0 {
        assert all[i] == p.screenshots[i - 1];
      }
    }
    FilterDropsAll(all, NonEmpty);
  }

  /** The tag row of a card. */
  function CardTags(p: RemoteProject): (r: TagRow)
    ensures r.shown <= p.techStack && |r.shown| <= PublicTagLimit
    ensures |p.techStack| > PublicTagLimit ==> |r.shown| == PublicTagLimit
    ensures r.more.Some? <==> |p.techStack| > PublicTagLimit
    ensures |r.shown| + r.more.GetOr(0) == |p.techStack|
  {
    TagBadges(p.techStack, PublicTagLimit)
  }

  /** The GitHub button, when the project has a repository link. */
  function GitHubLink(p: RemoteProject): (r: Option<string>)
    ensures r.Some? <==> p.githubUrl != ""
    ensures r.Some? ==> r.value == p.githubUrl
  {
    if p.githubUrl != "" then Some(p.githubUrl) else None
  }

  datatype Link = Link(href: string, caption: string)

  /** The primary button: the live site when there is one, labelled "Live
      Demo", else the demo, labelled "View Demo". */
  function PrimaryLink(p: RemoteProject): (r: Option<Link>)
    ensures r.Some? <==> p.liveUrl != "" || p.demoUrl != ""
    ensures r.Some? && p.liveUrl != "" ==> r.value == Link(p.liveUrl, "Live Demo")
    ensures r.Some? && p.liveUrl == "" ==> r.value == Link(p.demoUrl, "View Demo")
    ensures r.Some? ==> r.value.href != ""
  {
    if p.liveUrl != "" || p.demoUrl != "" then
      Some(Link(OrElse(p.liveUrl, p.demoUrl), if p.liveUrl != "" then "Live Demo" else "View Demo"))
    else None
  }

  /** Following either link records one view of the project. */
  function FollowLink(log: Log, p: RemoteProject, now: int, available: bool): (log': Log)
    ensures available ==> Counts(log') == Counts(log).(projectViews := Counts(log).projectViews + 1)
    ensures available ==> |log'| == |log| + 1 && log'[|log|].projectId == Some(p.id)
    ensures !available ==> log' == log
  {
    TrackProjectView(log, p.id, now, available)
  }
}

=== FILE: screenshot_carousel.dfy ===
/** The rotating image strip of `src/components/ScreenshotCarousel.tsx`.
    Its one piece of state is the current index; a timer advances it every
    two seconds while there is more than one image, and a dot click jumps
    to an image. The index is not reset when the list changes, so it may
    point past the end until the next tick. */
module ScreenshotCarousel {
  import opened Wrappers

  const IntervalMillis := 2000

  /** One timer tick: `(prev + 1) % n` while the list has more than one
      image; no timer runs otherwise. */
  function Tick(i: nat, n: nat): (r: nat)
    ensures n <= 1 ==> r == i
    ensures n > 1 ==> r < n
    ensures n > 1 && i + 1 < n ==> r == i + 1
    ensures n > 1 && i + 1 == n ==> r == 0
  {
    if n <= 1 then i else (i + 1) % n
  }

  /** The index after `k` ticks. */
  function Ticks(i: nat, n: nat, k: nat): nat {
    if k == 0 then i else Tick(Ticks(i, n, k - 1), n)
  }

  /** Ticking `a` times and then `b` times is ticking `a + b` times. */
  lemma {:induction false} TicksCompose(i: nat, n: nat, a: nat, b: nat)
    ensures Ticks(i, n, a + b) == Ticks(Ticks(i, n, a), n, b)
  {
    if b > 0 {
      TicksCompose(i, n, a, b - 1);
    }
  }

  /** Starting from the first image, the strip shows the images in order:
      after `k` ticks, for `k` below the count, image `k`. */
  lemma {:induction false} TicksFromStart(n: nat, k: nat)
    requires k < n
    ensures Ticks(0, n, k) == k
  {
    if k > 0 {
      TicksFromStart(n, k - 1);
    }
  }

  /** After a full round the strip is back at the first image, and from
      there it repeats with period `n`. */
  lemma TicksPeriodic(n: nat, k: nat)
    requires n > 1
    ensures Ticks(0, n, n) == 0
    ensures Ticks(0, n, n + k) == Ticks(0, n, k)
  {
    TicksFromStart(n, n - 1);
    assert Ticks(0, n, n) == Tick(n - 1, n);
    TicksCompose(0, n, n, k);
  }

  /** What is drawn: nothing, a single still image, or the current slide
      with one indicator dot per image. A slide whose index is past the end
      has no source. */
  datatype View = Nothing | Still(src: string) | Slide(current: Option<string>, dots: seq<bool>)

  function Render(shots: seq<string>, i: nat): (v: View)
    ensures |shots| == 0 <==> v.Nothing?
    ensures |shots| == 1 ==> v == Still(shots[0])
    ensures |shots| > 1 ==> v.Slide? && |v.dots| == |shots|
    ensures |shots| > 1 ==> forall k :: 0 <= k < |shots| ==> v.dots[k] == (k == i)
    ensures |shots| > 1 && i < |shots| ==> v.current == Some(shots[i])
    ensures |shots| > 1 && i >= |shots| ==> v.current.None?
  {
    if |shots| == 0 then Nothing
    else if |shots| == 1 then Still(shots[0])
    else Slide(if i < |shots| then Some(shots[i]) else None, seq(|shots|, k => k == i))
  }
}

=== FILE: seqs.dfy ===
/** Order-preserving selection, counting and substring search over
    sequences: the `Array.prototype.filter`, `.filter(...).length` and
    `String.prototype.includes` that the data layer and the admin screens
    are built from. */
module Seqs {

  /** The elements of `s` that `keep` accepts, in their original order. */
  function Filter<T(==,!new)>(s: seq<T>, keep: T -> bool): (r: seq<T>)
    ensures |r| <= |s|
    ensures forall x :: x in r <==> x in s && keep(x)
  {
    if s == [] then []
    else if keep(s[0]) then [s[0]] + Filter(s[1..], keep)
    else Filter(s[1..], keep)
  }

  /** The number of positions of `s` whose element `keep` accepts. */
  function Count<T>(s: seq<T>, keep: T -> bool): (n: nat)
    ensures n <= |s|
  {
    if s == [] then 0
    else (if keep(s[0]) then 1 else 0) + Count(s[1..], keep)
  }

  /** `a` can be obtained from `b` by deleting elements. */
  ghost predicate IsSubseq<T>(a: seq<T>, b: seq<T>)
    decreases |b|
  {
    if a == [] then true
    else if b == [] then false
    else (a[0] == b[0] && IsSubseq(a[1..], b[1..])) || IsSubseq(a, b[1..])
  }

  /** A filter keeps exactly as many elements as there are accepted positions. */
  lemma {:induction false} FilterLength<T(!new)>(s: seq<T>, keep: T -> bool)
    ensures |Filter(s, keep)| == Count(s, keep)
  {
    if s != [] {
      FilterLength(s[1..], keep);
    }
  }

  /** A filter deletes elements but never reorders them. */
  lemma {:induction false} FilterIsSubseq<T(!new)>(s: seq<T>, keep: T -> bool)
    ensures IsSubseq(Filter(s, keep), s)
  {
    if s != [] {
      FilterIsSubseq(s[1..], keep);
      var r := Filter(s, keep);
      if keep(s[0]) {
        assert r[0] == s[0] && r[1..] == Filter(s[1..], keep);
      } else {
        assert r == Filter(s[1..], keep);
        if r != [] {
          assert IsSubseq(r, s[1..]);
        }
      }
    }
  }

  /** A filter that accepts every element returns its input unchanged. */
  lemma {:induction false} FilterKeepsAll<T(!new)>(s: seq<T>, keep: T -> bool)
    requires forall i :: 0 <= i < |s| ==> keep(s[i])
    ensures Filter(s, keep) == s
  {
    if s != [] {
      FilterKeepsAll(s[1..], keep);
    }
  }

  /** A filter that accepts no element returns nothing. */
  lemma {:induction false} FilterDropsAll<T(!new)>(s: seq<T>, keep: T -> bool)
    requires forall i :: 0 <= i < |s| ==> !keep(s[i])
    ensures Filter(s, keep) == []
  {
    if s != [] {
      FilterDropsAll(s[1..], keep);
    }
  }

  /** Filtering a concatenation filters each part. */
  lemma {:induction false} FilterConcat<T(!new)>(a: seq<T>, b: seq<T>, keep: T -> bool)
    ensures Filter(a + b, keep) == Filter(a, keep) + Filter(b, keep)
  {
    if a == [] {
      assert a + b == b;
    } else {
      assert (a + b)[0] == a[0] && (a + b)[1..] == a[1..] + b;
      FilterConcat(a[1..], b, keep);
    }
  }

  /** Counting a predicate and its negation covers every position once. */
  lemma {:induction false} CountComplement<T>(s: seq<T>, keep: T -> bool, drop: T -> bool)
    requires forall x :: drop(x) == !keep(x)
    ensures Count(s, keep) + Count(s, drop) == |s|
  {
    if s != [] {
      CountComplement(s[1..], keep, drop);
    }
  }

  /** Two sequences whose elements agree position by position on `keep`
      have the same count. */
  lemma {:induction false} CountPointwise<T>(a: seq<T>, b: seq<T>, keep: T -> bool)
    requires |a| == |b|
    requires forall i :: 0 <= i < |a| ==> keep(a[i]) == keep(b[i])
    ensures Count(a, keep) == Count(b, keep)
  {
    if a != [] {
      CountPointwise(a[1..], b[1..], keep);
    }
  }

  /** `needle` occurs somewhere in `hay` as a contiguous block. */
  predicate Contains<T(==)>(hay: seq<T>, needle: seq<T>)
    decreases |hay|
  {
    needle <= hay || (hay != [] && Contains(hay[1..], needle))
  }

  /** The first `n` elements of `s`, or all of `s` when it is shorter
      (`Array.prototype.slice(0, n)`). */
  function Take<T>(s: seq<T>, n: nat): seq<T>
  {
    if |s| <= n then s else s[..n]
  }
}

=== FILE: wrappers.dfy ===
/** Optional values and fallible results, the two shapes every store
    operation of the portfolio data layer returns. */
module Wrappers {

  /** A value that may be absent: an optional field of a record, or a
      lookup that found nothing. */
  datatype Option<+T> = None | Some(value: T) {

    /** The carried value, or `default` when there is none. */
    function GetOr(default: T): T {
      match this
      case Some(v) => v
      case None => default
    }
  }

  /** The outcome of an operation that may throw: the value it returns, or
      the error it raises. */
  datatype Result<+T, +E> = Success(value: T) | Failure(error: E)
}
